=== FILE: README.md ===
# ExpenseTrackr decision logic in Dafny

This project models the non-visual decision logic of the ExpenseTrackr mobile
app and proves what it promises. The modelled parts are:

- the credential schemas for login and registration, and the shapes of the
  server's validation errors;
- the login and register mutations, with the request bodies they send and the
  message a failed response turns into;
- the `signIn` action, with its 422 mapping and the replacement of exceptions
  by one connectivity message;
- the device name a login announces, and which configuration picks it;
- the session store hook over the platform's secure key-value store;
- the query client's retry policy;
- the badge count cap, the button's `rgb(...)` to `rgba(...)` conversion with
  the Android ripple table built from it, and the text field's visual state.

One Dafny module stands for each source file. Three shared modules support
them:

- `Wrappers` holds `Option` and `Result`.
- `JsText` holds the JavaScript string and number semantics the code relies
  on: truthiness and `||`, `trim`, `indexOf`, UTF-16 `length`, the
  `/\d+/g` match, `parseInt` and `String(n)`.
- `Fetch` holds the HTTP client's response shape and JSON values.

Some inputs are parameters rather than calls:

- The development flag `__DEV__` is the `isDevelopment` argument.
- `Platform.OS`, the app version and the model name are a `Device.Probe`.
- Whether each secure-store call fails is a boolean argument of that call.
- What awaiting the HTTP client produced is a `Fetch.Call`.
- The e-mail syntax check of the schemas is a predicate `isEmail`.

## Model

| member | source | states |
|---|---|---|
| AuthSchemas.PasswordIssues | schemas/auth.ts:3-9 | the password issues are all on the password path and carry only the five password messages: too short iff the UTF-16 length is below 8, and each complexity message iff no lowercase, uppercase, digit or non-alphanumeric character occurs |
| AuthSchemas.PasswordAcceptedIffStrong | schemas/auth.ts:3-9 | a register password is accepted exactly when it has length at least 8 and one character of each of the four classes |
| AuthSchemas.LoginIssues | schemas/auth.ts:11-15 | the login issues are exactly the invalid-e-mail issue on email when the e-mail check fails and the too-short issue on password when its UTF-16 length is below 8; a login is accepted iff neither holds; the device name never causes an issue |
| AuthSchemas.NameIssues | schemas/auth.ts:24 | the name has an issue, exactly "Name is required" on name, iff it is empty |
| AuthSchemas.RegisterFieldIssues | schemas/auth.ts:22-29 | the field issues are exactly: "Name is required" iff the name is empty, the e-mail issue iff the e-mail check fails, the password issues, and too-short on confirm_password iff the confirmation is shorter than 8; never the device_name path |
| AuthSchemas.RegisterIssues | schemas/auth.ts:22-33 | the registration issues are exactly the field issues plus "Passwords do not match" on confirm_password iff the two passwords differ; device_name is never an issue path |
| AuthSchemas.RegisterIssueConditions | schemas/auth.ts:22-33 | each registration issue appears iff its own condition holds: name required iff the name is empty, invalid e-mail iff the check fails, mismatch iff the passwords differ, confirmation too short iff below 8, and the issues on password are exactly the password schema's |
| AuthSchemas.RegisterAcceptedIff | schemas/auth.ts:22-33 | a registration is accepted exactly when the name is non-empty, the e-mail is valid, the password is strong, the confirmation has length at least 8 and equals the password |
| AuthSchemas.DeviceNameIgnored | schemas/auth.ts:11-28 | changing or removing the optional device_name changes neither the login issues nor the registration issues |
| AuthSchemas.LoginPasswordWeakerThanRegister | schemas/auth.ts:3-13 | "abcdefgh" passes the login password rule and fails the register one |
| AuthSchemas.LowercaseWordLoginOnly | schemas/auth.ts:3-13 | any password of at least eight lowercase letters passes login and is not strong enough to register |
| AuthSchemas.ParseLoginValidationError | schemas/auth.ts:17-20 | the login error shape accepts an object exactly when each of email and password is absent or an array of strings, and then each parsed field is absent exactly when the key is, and otherwise holds that array's strings |
| AuthSchemas.ParseRegisterValidationError | schemas/auth.ts:35-40 | the register error shape accepts an object exactly when each of its four keys is absent or an array of strings, and then each parsed field is absent exactly when the key is, and otherwise holds that array's strings |
| AuthSchemas.MissingKeysConform | schemas/auth.ts:17-40 | an object with none of the keys conforms to both shapes, with every field absent |
| ApiAuth.LoginRequest | hooks/api/auth.ts:16-21 | the login body is the input with device_name replaced by the configured device name |
| ApiAuth.DevelopmentLoginDeviceName | hooks/api/auth.ts:16-21 | in development every login body carries "ExpenseTrackr-Dev", whatever the caller passed |
| ApiAuth.FirstTruthy | hooks/api/auth.ts:28 | the reference meaning of a `||` chain: the index of the first truthy candidate, with no truthy one before it |
| ApiAuth.OrChainIsFirstTruthy | hooks/api/auth.ts:52-57 | a left-nested `||` chain is truthy iff some candidate is, and then equals the first truthy candidate |
| ApiAuth.LoginMessagePriority | hooks/api/auth.ts:23-32 | a conforming login error reports the first non-empty of email[0] and password[0], else "Invalid credentials", after "Login failed: "; a non-conforming one reports exactly "Login failed" |
| ApiAuth.LoginSingleFieldMessage | hooks/api/auth.ts:28-29 | an error whose only key is email, or only password, holding a single non-empty message, reports that message |
| ApiAuth.LoginOutcome | hooks/api/auth.ts:16-35 | a response without error resolves to exactly its data; an error response rejects with exactly the login failure message of its error; a transport exception propagates unchanged |
| ApiAuth.RegisterRequest | hooks/api/auth.ts:43-45 | the register body is the input unchanged, with no device_name injected |
| ApiAuth.RegisterMessagePriority | hooks/api/auth.ts:47-61 | a conforming register error reports the first non-empty first message of name, email, password, confirm_password, else "Unknown error", after "Register failed: "; a non-conforming one reports "Register failed: Unknown error" |
| ApiAuth.RegisterOutcome | hooks/api/auth.ts:43-64 | a response without error resolves to exactly its data; an error response rejects with exactly the register failure message of its error; a transport exception propagates unchanged |
| ApiAuth.StatusNeverReported | hooks/api/auth.ts:23-32 | an error body with none of the validation keys, whatever its HTTP status, is reported as "Login failed: Invalid credentials" and "Register failed: Unknown error" |
| ApiAuth.FailureMessagesArePrefixed | hooks/api/auth.ts:29-61 | every login rejection starts with "Login failed" and every register rejection with "Register failed: " |
| SignIn.SignInRequest | actions/auth.ts:11-16 | the sign-in body keeps e-mail and password and always carries device_name "mobile-app" |
| SignIn.SignInIgnoresDeviceName | actions/auth.ts:11-16 | two inputs that differ only in device_name send the same request |
| SignIn.FirstElement | actions/auth.ts:23 | `?.[0]` on a JSON value: first array item, first code unit of a string, the "0" member of an object, and undefined for null, numbers and booleans |
| SignIn.ValidationMessage | actions/auth.ts:23 | the 422 message is email[0] when that is neither null nor undefined, and password[0] otherwise; it is nullish only when both are |
| SignIn.SignIn | actions/auth.ts:7-32 | status 422 becomes `{error:{message}}`; any other error, and success, are returned unchanged; a thrown exception becomes exactly the connectivity message |
| SignIn.TransportFailureHandling | actions/auth.ts:29-31 | a thrown transport exception propagates unchanged out of the login hook but becomes the connectivity message in `signIn` |
| SignIn.FirstElementOfStrings | actions/auth.ts:23 | on a field the error shape accepts, `?.[0]` on the raw JSON and on the parsed list give the same message |
| SignIn.SignInAgreesWithLoginHook | actions/auth.ts:20-26 | on an error body the login error shape accepts, when signIn's message is a non-empty string, the login hook reports that same message |
| SignIn.EmptyEmailMessageKept | actions/auth.ts:23 | with email [""] and a non-empty password message p, signIn keeps the empty message while the login hook reports p |
| Device.PlatformLabel | utils/device.ts:34 | the label is "iOS" exactly for platform "ios" and "Android" for every other platform |
| Device.GenerateDeviceName | utils/device.ts:18-44 | a truthy custom name is returned verbatim; otherwise "ExpenseTrackr", the platform label, the model when known and "v" plus the version (or "vunknown") are joined by single spaces; "ExpenseTrackr Mobile" when reading the device throws |
| Device.JoinedParts | utils/device.ts:32-39 | filtering the falsy parts and joining with spaces gives that closed form, with no double space when the model is unknown |
| Device.GenerateSimpleDeviceName | utils/device.ts:51-58 | a truthy custom name verbatim, else "ExpenseTrackr iOS" exactly on ios and "ExpenseTrackr Android" otherwise |
| Device.SimpleNameBeginsDetailedName | utils/device.ts:18-58 | when the device information can be read, both generators agree on a custom name, and without one the simple name followed by a space begins the detailed name |
| AuthConfig.GetAuthConfig | utils/auth-config.ts:13-33 | the configuration has a custom device name exactly in development, and it is "ExpenseTrackr-Dev" |
| AuthConfig.GetConfiguredDeviceName | utils/auth-config.ts:38-43 | an explicit truthy custom name wins; otherwise "ExpenseTrackr-Dev" in development and the generated name in production |
| Query.RetryQuery | utils/query.ts:14-25 | a query is retried iff `failureCount`, the number of earlier failures, is below 3 and the error is not an Error whose message contains "401"; a non-Error value is retried below 3 |
| Query.ShouldRetry | utils/query.ts:14-29 | a query follows the query retry rule exactly; mutations are never retried |
| Query.AuthFailureNotRetried | utils/query.ts:20-22 | a message with "401" anywhere in it is never retried, whatever the count |
| Query.AttemptsFrom | utils/query.ts:14-25 | the attempts made from the current failed one on, that one included: one on an authentication failure, and 4 minus failureCount otherwise (for failureCount at most 3) |
| Query.AtMostFourAttempts | utils/query.ts:14-25 | a query runs once on a 401 error and four times in all otherwise: the first attempt and three retries |
| Badge.GetCount | components/ui/badge.tsx:72-90 | without a maximum, and for a count that is not numeric, the count is returned unchanged; a numeric value at most the maximum returns the original count; above it, the text "{max}+" |
| Badge.CappedTextNotNumeric | components/ui/badge.tsx:80-89 | the capped text "{max}+" is never read back as a number |
| Badge.DisplayedWithinMax | components/ui/badge.tsx:72-90 | with a maximum, a displayed count never stands for a number above it |
| Badge.GetCountIdempotent | components/ui/badge.tsx:72-90 | capping an already capped count changes nothing |
| Button.ConvertToRgba | components/ui/button.tsx:74-86 | success iff the colour has exactly three digit runs and the opacity lies in [0, 1]; the format error takes precedence over the opacity error; the result is "rgba(r,g,b,o)" with the runs' values in order |
| Button.RgbRoundTrip | components/ui/button.tsx:74-86 | converting "rgb(r, g, b)" with an opacity in [0, 1] gives "rgba(r,g,b,o)" with the same channels |
| Button.FractionalAlphaRejected | components/ui/button.tsx:75-78 | an "rgba(r, g, b, w.f)" input has five digit runs and is rejected with the format error whatever the opacity |
| Button.RippleColorsConvert | components/ui/button.tsx:88-101 | every one of the eight ripple entries converts without error, to its neutral grey level with opacity 0.4 or 0.8 |
| TextField.GetInputState | components/ui/text-field/text-field.tsx:165-176 | never "error"; "disabled" iff editable is false; "errorAndFocused" iff editable, erroneous and focused; "focused" iff editable, focused and not erroneous; "idle" iff editable and unfocused |
| TextField.PressDisabledIffDisabledState | components/ui/text-field/text-field.tsx:92 | the pressable root is disabled (`editable === false`) exactly when the field is styled "disabled" |
| TextField.Clear | components/ui/text-field/text-field.tsx:63-65 | clearing sets the value to "" and changes nothing else |
| TextField.Placeholder | components/ui/text-field/text-field.tsx:128 | the placeholder is passed through while focused or without a label, and is "" otherwise |
| TextField.PlaceholderFollowsFocus | components/ui/text-field/text-field.tsx:128 | focusing shows the caller's placeholder even under a label; clearing never changes the placeholder shown; under a truthy label a non-empty placeholder is shown iff the field is focused |
| TextField.ShowsErrorIcon | components/ui/text-field/text-field.tsx:137-145 | the error icon shows iff the action icons are not hidden and the error message is truthy, whatever the focus and the text |
| TextField.ShowsClearIcon | components/ui/text-field/text-field.tsx:137-145 | the clear icon shows iff the action icons are not hidden, the error message is not truthy, the text is non-empty and the field is focused |
| TextField.UnfocusedErrorIsIdle | components/ui/text-field/text-field.tsx:165-176 | an unfocused editable field with an error message is styled idle |
| TextField.IconsExclusive | components/ui/text-field/text-field.tsx:137-145 | the error icon and the clear icon are never shown together |
| TextField.ClearHidesClearIcon | components/ui/text-field/text-field.tsx:137-145 | after clearing, the clear icon is hidden while style and error icon stay as they were |
| Storage.Reduce | hooks/storage.ts:6-11 | every dispatch ends loading and sets the value to the argument, a missing argument counting as null |
| Storage.SetStorageItem | hooks/storage.ts:13-19 | a successful write maps the key to the value, null deleting it, and leaves every other key alone; a failed one reports failure |
| Storage.WriteThenRead | hooks/storage.ts:13-19 | a read after a successful write returns the written value, or null after writing null |
| Storage.Mount | hooks/storage.ts:6-11 | a freshly mounted hook is loading with a null value |
| Storage.Load | hooks/storage.ts:24-31 | once the initial read settles, loading is false and the value is the stored one, or null if the read failed |
| Storage.SetValue | hooks/storage.ts:33-48 | the state becomes (false, v) before the write; after a successful write the value equals the stored one and no other key changes; after a failed write the store is unchanged and the value is the re-read one, or null when that fails too |
| Storage.ClearAbsentSession | hooks/storage.ts:33-48 | writing null when nothing is stored ends with nothing stored and a loaded null state, whether or not the write or the re-read fails |
| Storage.RunInvariants | hooks/storage.ts:22-48 | over any sequence of settled operations the key and every other stored key stay unchanged, loading ends at the first one, and a run ending with a reliable operation leaves the value equal to the stored one |
| JsText.Utf16Length | schemas/auth.ts:5 | the length zod's `min` checks counts UTF-16 code units: between the number of characters and twice that, equal exactly when none is outside the basic plane |
| JsText.Trim | components/ui/badge.tsx:80-84 | `trim` gives a contiguous slice of the input with only ECMAScript whitespace before and after it, and neither end of the result is whitespace |
| JsText.IndexOf | utils/query.ts:20 | `indexOf` is -1 iff the pattern does not occur, and otherwise the first position where it does |
| JsText.DigitRuns | components/ui/button.tsx:75 | `match(/\d+/g)`: every run is a non-empty string of digits |
| JsText.DigitRunsCoverDigits | components/ui/button.tsx:75 | the runs, concatenated, are exactly the digits of the input in order |
| JsText.MatchDigitRuns | components/ui/button.tsx:75 | the left-to-right scan collects exactly the maximal digit runs |
| JsText.DecimalRoundTrip | components/ui/button.tsx:79-85 | `parseInt` of the decimal text `String(n)` gives back n |
| JsText.IntToString | components/ui/badge.tsx:89 | `String(n)` of a non-negative integer is decimal text whose value is n; of a negative one, "-" followed by decimal text whose value is -n |

## Notes on the source's behaviour

- The login and register hooks never put the HTTP status into their messages.
  Every field of the error shapes is optional, so an error body with none of
  those keys conforms. A 500 answer therefore reports "Login failed: Invalid
  credentials" (`ApiAuth.StatusNeverReported`). Plain "Login failed" appears
  only when the email or password member is present but is not a list of
  strings.
- The login hook picks the first message with `||`, which skips an empty
  string. The `signIn` action picks it with `??`, which keeps an empty string.
  `SignIn.EmptyEmailMessageKept` states where the two differ.

## Left out

- Rendering, layout, animation and styling of every component: only the decisions they take are modelled.
- The HTTP transport in lib/fetch.ts: the base URL, the bearer token and the schema the client applies to request bodies. A response, or a thrown exception, is an input. lib/fetch.ts is not part of this model.
- The client's `error` object is the status, the status text and the response body's members. A body member named `status` or `statusText` is not modelled as overriding those.
- `console` logging in every module, because it does not affect any result.
- The React hooks machinery: `useMutation`, `useReducer`, `useEffect` and `useCallback` are replaced by the pure transitions they drive.
- Concurrency in hooks/storage.ts: each platform call is atomic and settles before the next event. Interleaved loads and writes, and the order in which racing promises settle, are not modelled.
- Storage.SetStorageItem: a platform write that fails is taken to leave the store unchanged. The secure store gives no such promise.
- The e-mail syntax of `z.email` is the predicate parameter `isEmail`, because it is a foreign parser.
- AuthSchemas.RegisterIssues: the `.refine` check is taken to run even when a field already has issues. This is how zod 4 treats checks that do not abort.
- Floating-point numbers:
  - Badge.GetCount: a numeric count is an integer or NaN, and `maxCount` is an integer. Fractional values, and the precision lost on very long digit strings, are left out.
  - Button.ConvertToRgba: the opacity is a real number together with its rendered text. JavaScript's number formatting is not modelled. The channels are exact unbounded integers: `parseInt` rounding a digit run above 2^53 to the nearest double, and the exponent form `String` uses from 1e21 up, are left out, so a channel such as 12345678901234567890 is rendered with all its digits.
  - JsText.IntToString: integers are exact and unbounded. JavaScript numbers are doubles: `String(n)` writes integers from 1e21 up in exponent form ("1e+21"), and `parseInt` rounds values above 2^53. Neither is modelled; this also covers the `${maxCount}+` text of Badge.GetCount.
- The retry callback's arguments follow the query library: `failureCount` counts the failures before the one being judged, so it is 0 when the first attempt fails. The library itself is not part of this model.
- `defaultAuthConfig` in utils/auth-config.ts, because it is exported but never read; it equals the production configuration.
- The query client's `staleTime`, `gcTime` and `throwOnError` settings, because they are constants that no decision here reads.
- `osVersion` and `deviceName` in utils/device.ts, because they are gathered but never used in the name.
- SignIn.FirstElement: the first code unit of a string is modelled as its first character. Strings whose first character lies outside the basic plane, where JavaScript would yield half a surrogate pair, are not modelled.
- The iOS variant of the text field, `text-field.ios.tsx`, because it is a separate rendering of the same props; it is not part of this model.
- The rest of the repository: screens, navigation, providers, theme tables beyond the five neutral colours the ripple table reads, utility wrappers and build configuration.

=== FILE: api_auth.dfy ===
/** The login and register mutation functions: the request each sends, and
    how a failed response becomes the message of the thrown `Error`. */
module ApiAuth {
  import opened Wrappers
  import opened JsText
  import opened Fetch
  import opened Device
  import opened AuthConfig
  import opened AuthSchemas

  const LoginPath := "/auth/login"
  const RegisterPath := "/auth/register"

  /** How the mutation function's promise settles: resolved with a value,
      rejected with a new `Error` carrying `message`, or rejected with the
      HTTP client's own exception, which passes through unchanged. */
  datatype Outcome<T> = Resolved(value: T) | Thrown(message: string) | Propagated

  /** `field?.[0]`: the first message of an optional list. */
  function FirstMessage(field: Option<seq<string>>): (r: Option<string>)
    ensures r.Some? <==> field.Some? && |field.value| > 0
    ensures r.Some? ==> r.value == field.value[0]
  {
    if field.Some? && |field.value| > 0 then Some(field.value[0]) else None
  }

  /** The index of the first truthy candidate, if any: the meaning of a
      chain `c0 || c1 || ... || default`. */
  function FirstTruthy(candidates: seq<Option<string>>): (r: Option<nat>)
    ensures r.None? <==> forall i :: 0 <= i < |candidates| ==> !Truthy(candidates[i])
    ensures r.Some? ==> r.value < |candidates| && Truthy(candidates[r.value])
    ensures r.Some? ==> forall j :: 0 <= j < r.value ==> !Truthy(candidates[j])
  {
    if candidates == [] then None
    else if Truthy(candidates[0]) then Some(0)
    else match FirstTruthy(candidates[1..])
      case None => None
      case Some(i) => Some(i + 1)
  }

  /** The candidate chosen by `FirstTruthy`, or `default` when none is truthy. */
  function FirstTruthyOr(candidates: seq<Option<string>>, default: string): string {
    match FirstTruthy(candidates)
    case Some(i) => candidates[i].value
    case None => default
  }

  /** The left-nested chain `((c0 || c1) || c2) || ...`, `undefined` when empty. */
  function OrChain(candidates: seq<Option<string>>): Option<string> {
    if candidates == [] then None
    else Or(OrChain(candidates[..|candidates| - 1]), candidates[|candidates| - 1])
  }

  /** The chain is truthy exactly when some candidate is, and then it is the
      first truthy candidate. */
  lemma {:induction false} OrChainIsFirstTruthy(candidates: seq<Option<string>>)
    ensures Truthy(OrChain(candidates)) <==> FirstTruthy(candidates).Some?
    ensures FirstTruthy(candidates).Some? ==> OrChain(candidates) == candidates[FirstTruthy(candidates).value]
  {
    if candidates != [] {
      var n := |candidates| - 1;
      var front := candidates[..n];
      OrChainIsFirstTruthy(front);
      assert forall i :: 0 <= i < n ==> front[i] == candidates[i];
      if FirstTruthy(front).Some? {
        assert FirstTruthy(candidates) == FirstTruthy(front);
      }
    }
  }

  /** `chain || default` picks the first truthy candidate, else `default`. */
  lemma OrChainOrDefault(candidates: seq<Option<string>>, default: string)
    ensures Or(OrChain(candidates), Some(default)).value == FirstTruthyOr(candidates, default)
  {
    OrChainIsFirstTruthy(candidates);
  }

  // ---------------------------------------------------------------------------
  // useLogin

  /** The login request: the caller's values with `device_name` replaced by
      the configured device name (no custom name is passed). */
  function LoginRequest(values: LoginInput, isDevelopment: bool, probe: Probe): (r: Request<LoginInput>)
    ensures r.path == LoginPath
    ensures r.body.email == values.email && r.body.password == values.password
    ensures r.body.deviceName == Some(GetConfiguredDeviceName(None, isDevelopment, probe))
  {
    Request(LoginPath, values.(deviceName := Some(GetConfiguredDeviceName(None, isDevelopment, probe))))
  }

  /** In development every login announces `ExpenseTrackr-Dev`, whatever
      device name the caller supplied. */
  lemma DevelopmentLoginDeviceName(values: LoginInput, probe: Probe)
    ensures LoginRequest(values, true, probe).body == values.(deviceName := Some("ExpenseTrackr-Dev"))
  {
  }

  /** The message a failed login throws. */
  function LoginFailureMessage(error: FetchError): string {
    match ParseLoginValidationError(error.body)
    case Some(e) =>
      var message := Or(Or(FirstMessage(e.email), FirstMessage(e.password)), Some("Invalid credentials")).value;
      "Login failed: " + message
    case None => "Login failed"
  }

  /** `useLogin`'s handling of the response. */
  function LoginOutcome(call: Call<string>): (r: Outcome<string>)
    ensures r == Propagated <==> call.Threw?
    ensures call.Responded? && call.response.Data? ==> r == Resolved(call.response.data)
    ensures call.Responded? && call.response.Error? ==> r == Thrown(LoginFailureMessage(call.response.error))
  {
    match call
    case Threw => Propagated
    case Responded(Data(token)) => Resolved(token)
    case Responded(Error(error)) => Thrown(LoginFailureMessage(error))
  }

  /** A conforming login error reports the first non-empty of the first email
      message and the first password message, else `Invalid credentials`,
      after `Login failed: `; a non-conforming one just `Login failed`. */
  lemma LoginMessagePriority(error: FetchError)
    ensures match ParseLoginValidationError(error.body)
      case Some(e) => LoginFailureMessage(error) ==
        "Login failed: " + FirstTruthyOr([FirstMessage(e.email), FirstMessage(e.password)], "Invalid credentials")
      case None => LoginFailureMessage(error) == "Login failed"
  {
    if ParseLoginValidationError(error.body).Some? {
      var e := ParseLoginValidationError(error.body).value;
      var c := [FirstMessage(e.email), FirstMessage(e.password)];
      assert c[..1][..0] == [];
      assert OrChain(c[..1]) == c[0];
      assert OrChain(c) == Or(c[0], c[1]);
      OrChainOrDefault(c, "Invalid credentials");
    }
  }

  /** `{ email: [m] }` with a non-empty `m` reports `m`, and so does
      `{ password: [m] }` without an `email` key. */
  lemma LoginSingleFieldMessage(m: string, status: int, statusText: string)
    requires m != ""
    ensures LoginFailureMessage(FetchError(status, statusText, map["email" := JArray([JString(m)])])) == "Login failed: " + m
    ensures LoginFailureMessage(FetchError(status, statusText, map["password" := JArray([JString(m)])])) == "Login failed: " + m
  {
    var emailOnly := map["email" := JArray([JString(m)])];
    var passwordOnly := map["password" := JArray([JString(m)])];
    var items := [JString(m)];
    assert items[0] == JString(m) && items[1..] == [];
    assert StringArray(items[1..]) == Some([]);
    assert [m] + [] == [m];
    assert StringArray(items) == Some([m]);
    assert "email" != "password" by { assert "email"[0] != "password"[0]; }
    assert OptionalStrings(emailOnly, "email") == Strings([m]);
    assert OptionalStrings(emailOnly, "password") == Absent;
    assert ParseLoginValidationError(emailOnly) == Some(LoginValidationError(Some([m]), None));
    assert ParseLoginValidationError(passwordOnly) == Some(LoginValidationError(None, Some([m])));
  }

  // ---------------------------------------------------------------------------
  // useRegister

  /** The register request: the caller's values, unchanged. */
  function RegisterRequest(values: RegisterInput): (r: Request<RegisterInput>)
    ensures r.path == RegisterPath && r.body == values
  {
    Request(RegisterPath, values)
  }

  /** The message a failed registration throws. */
  function RegisterFailureMessage(error: FetchError): string {
    match ParseRegisterValidationError(error.body)
    case Some(e) =>
      var message :=
        Or(Or(Or(Or(FirstMessage(e.name), FirstMessage(e.email)), FirstMessage(e.password)),
              FirstMessage(e.confirmPassword)), Some("Unknown error")).value;
      "Register failed: " + message
    case None => "Register failed: Unknown error"
  }

  /** `useRegister`'s handling of the response. */
  function RegisterOutcome(call: Call<string>): (r: Outcome<string>)
    ensures r == Propagated <==> call.Threw?
    ensures call.Responded? && call.response.Data? ==> r == Resolved(call.response.data)
    ensures call.Responded? && call.response.Error? ==> r == Thrown(RegisterFailureMessage(call.response.error))
  {
    match call
    case Threw => Propagated
    case Responded(Data(token)) => Resolved(token)
    case Responded(Error(error)) => Thrown(RegisterFailureMessage(error))
  }

  /** A conforming register error reports the first non-empty first message
      of name, email, password, confirm_password, in that order, else
      `Unknown error`; a non-conforming one reports `Unknown error` too. */
  lemma RegisterMessagePriority(error: FetchError)
    ensures match ParseRegisterValidationError(error.body)
      case Some(e) => RegisterFailureMessage(error) == "Register failed: " +
        FirstTruthyOr([FirstMessage(e.name), FirstMessage(e.email), FirstMessage(e.password), FirstMessage(e.confirmPassword)],
                      "Unknown error")
      case None => RegisterFailureMessage(error) == "Register failed: Unknown error"
  {
    if ParseRegisterValidationError(error.body).Some? {
      var e := ParseRegisterValidationError(error.body).value;
      var c := [FirstMessage(e.name), FirstMessage(e.email), FirstMessage(e.password), FirstMessage(e.confirmPassword)];
      assert c[..3][..2] == c[..2] && c[..2][..1] == c[..1] && c[..1][..0] == [];
      assert OrChain(c[..1]) == c[0];
      assert OrChain(c[..2]) == Or(c[0], c[1]);
      assert OrChain(c[..3]) == Or(Or(c[0], c[1]), c[2]);
      assert OrChain(c) == Or(Or(Or(c[0], c[1]), c[2]), c[3]);
      OrChainOrDefault(c, "Unknown error");
    }
  }

  /** The status code never reaches the message: an error body without any of
      the validation keys, whatever its status, conforms to both shapes and
      reports the default message. */
  lemma StatusNeverReported(error: FetchError)
    requires "email" !in error.body && "password" !in error.body
    requires "name" !in error.body && "confirm_password" !in error.body
    ensures LoginFailureMessage(error) == "Login failed: Invalid credentials"
    ensures RegisterFailureMessage(error) == "Register failed: Unknown error"
  {
    MissingKeysConform(error.body);
  }

  /** Every rejection message starts with its operation's prefix. */
  lemma FailureMessagesArePrefixed(error: FetchError)
    ensures |LoginFailureMessage(error)| >= 12 && LoginFailureMessage(error)[..12] == "Login failed"
    ensures |RegisterFailureMessage(error)| >= 17 && RegisterFailureMessage(error)[..17] == "Register failed: "
  {
  }
}

=== FILE: auth_config.dfy ===
/** Which device name a login announces: an explicit custom name, else the
    environment's configured name, else a generated one. */
module AuthConfig {
  import opened Wrappers
  import opened JsText
  import opened Device

  datatype Config = Config(customDeviceName: Option<string>)

  const DevDeviceName := "ExpenseTrackr-Dev"

  const DevAuthConfig := Config(Some(DevDeviceName))
  const ProdAuthConfig := Config(None)

  /** `getAuthConfig()`, with `__DEV__` as a parameter. */
  function GetAuthConfig(isDevelopment: bool): (c: Config)
    ensures c.customDeviceName.Some? <==> isDevelopment
    ensures isDevelopment ==> c.customDeviceName == Some(DevDeviceName)
  {
    if isDevelopment then DevAuthConfig else ProdAuthConfig
  }

  /** `getConfiguredDeviceName(customName)`: `customName || config.customDeviceName`
      handed to `generateDeviceName`. */
  function GetConfiguredDeviceName(customName: Option<string>, isDevelopment: bool, probe: Probe): (r: string)
    ensures Truthy(customName) ==> r == customName.value
    ensures !Truthy(customName) && isDevelopment ==> r == DevDeviceName
    ensures !Truthy(customName) && !isDevelopment ==> r == GenerateDeviceName(None, probe)
  {
    var config := GetAuthConfig(isDevelopment);
    var deviceName := Or(customName, config.customDeviceName);
    GenerateDeviceName(deviceName, probe)
  }
}

=== FILE: auth_schemas.dfy ===
/** The login and register input rules and the shapes of the 422
    validation errors the server returns. Every failing check reports an
    issue (checks on a field do not stop at the first failure), and the
    password-confirmation rule is checked after the fields. The email
    syntax check is left abstract as `isEmail`. */
module AuthSchemas {
  import opened Wrappers
  import opened JsText
  import opened Fetch

  datatype LoginInput = LoginInput(email: string, password: string, deviceName: Option<string>)

  datatype RegisterInput = RegisterInput(
    name: string, email: string, password: string, confirmPassword: string, deviceName: Option<string>)

  datatype Path = NamePath | EmailPath | PasswordPath | ConfirmPasswordPath | DeviceNamePath

  /** The messages the schemas report; `Text` is the wording shown to the user. */
  datatype Message =
    | InvalidEmail
    | TooShort
    | NeedsLowercase
    | NeedsUppercase
    | NeedsNumber
    | NeedsSpecial
    | NameRequired
    | PasswordsDoNotMatch
  {
    function Text(): string {
      match this
      case InvalidEmail => "Please enter a valid email address"
      case TooShort => "Password must be at least 8 characters long"
      case NeedsLowercase => "Password must contain at least one lowercase letter"
      case NeedsUppercase => "Password must contain at least one uppercase letter"
      case NeedsNumber => "Password must contain at least one number"
      case NeedsSpecial => "Password must contain at least one special character"
      case NameRequired => "Name is required"
      case PasswordsDoNotMatch => "Passwords do not match"
    }
  }

  datatype Issue = Issue(path: Path, message: Message)

  const MinPasswordLength := 8

  /** `/[a-z]/.test(s)` and its siblings. */
  predicate HasLowercase(s: string) { exists i :: 0 <= i < |s| && IsLower(s[i]) }
  predicate HasUppercase(s: string) { exists i :: 0 <= i < |s| && IsUpper(s[i]) }
  predicate HasDigit(s: string) { exists i :: 0 <= i < |s| && IsDigit(s[i]) }
  predicate HasSpecial(s: string) { exists i :: 0 <= i < |s| && !IsAlphanumeric(s[i]) }

  /** `.min(8, ...)`: at least eight UTF-16 code units. */
  function MinLengthIssues(path: Path, s: string): (issues: seq<Issue>)
    ensures forall x :: x in issues <==> Utf16Length(s) < MinPasswordLength && x == Issue(path, TooShort)
  {
    if Utf16Length(s) < MinPasswordLength then [Issue(path, TooShort)] else []
  }

  /** One `.regex` check: no issue when it passes, else its message on the password. */
  function RegexIssues(passes: bool, message: Message): (issues: seq<Issue>)
    ensures passes <==> issues == []
    ensures forall x :: x in issues <==> !passes && x == Issue(PasswordPath, message)
  {
    if passes then [] else [Issue(PasswordPath, message)]
  }

  /** `passwordSchema`: length, then lowercase, uppercase, digit and special
      character, each failing check adding its own issue. */
  function PasswordIssues(p: string): (issues: seq<Issue>)
    ensures forall x :: x in issues ==> x.path == PasswordPath
    ensures forall x :: x in issues ==> x.message in {TooShort, NeedsLowercase, NeedsUppercase, NeedsNumber, NeedsSpecial}
    ensures Issue(PasswordPath, TooShort) in issues <==> Utf16Length(p) < 8
    ensures Issue(PasswordPath, NeedsLowercase) in issues <==> !HasLowercase(p)
    ensures Issue(PasswordPath, NeedsUppercase) in issues <==> !HasUppercase(p)
    ensures Issue(PasswordPath, NeedsNumber) in issues <==> !HasDigit(p)
    ensures Issue(PasswordPath, NeedsSpecial) in issues <==> !HasSpecial(p)
  {
    var length := MinLengthIssues(PasswordPath, p);
    var lower := RegexIssues(HasLowercase(p), NeedsLowercase);
    var upper := RegexIssues(HasUppercase(p), NeedsUppercase);
    var digit := RegexIssues(HasDigit(p), NeedsNumber);
    var special := RegexIssues(HasSpecial(p), NeedsSpecial);
    var issues := length + lower + upper + digit + special;
    assert forall x :: x in issues <==> x in length || x in lower || x in upper || x in digit || x in special;
    issues
  }

  /** A register password is accepted exactly when it is long enough and has
      a lowercase letter, an uppercase letter, a digit and a character
      outside `[a-zA-Z0-9]`. */
  predicate StrongPassword(p: string) {
    Utf16Length(p) >= MinPasswordLength && HasLowercase(p) && HasUppercase(p) && HasDigit(p) && HasSpecial(p)
  }

  lemma PasswordAcceptedIffStrong(p: string)
    ensures PasswordIssues(p) == [] <==> StrongPassword(p)
  {
    var issues := PasswordIssues(p);
    if issues != [] {
      assert issues[0] in issues;
    }
  }

  /** `LoginSchema`: a valid email and a password of at least 8 code units;
      `device_name` is optional and never checked. */
  function LoginIssues(input: LoginInput, isEmail: string -> bool): (issues: seq<Issue>)
    ensures issues == [] <==> isEmail(input.email) && Utf16Length(input.password) >= MinPasswordLength
    ensures forall x :: x in issues <==>
      || (x == Issue(EmailPath, InvalidEmail) && !isEmail(input.email))
      || (x == Issue(PasswordPath, TooShort) && Utf16Length(input.password) < MinPasswordLength)
    ensures forall x :: x in issues ==> x.path != DeviceNamePath
  {
    var email := if isEmail(input.email) then [] else [Issue(EmailPath, InvalidEmail)];
    var password := MinLengthIssues(PasswordPath, input.password);
    var issues := email + password;
    assert forall x :: x in issues <==> x in email || x in password;
    issues
  }

  /** `z.string().min(1)`: a name is missing exactly when it is empty. */
  function NameIssues(name: string): (issues: seq<Issue>)
    ensures forall x :: x in issues <==> name == "" && x == Issue(NamePath, NameRequired)
  {
    assert Utf16Length(name) < 1 <==> name == "";
    if Utf16Length(name) < 1 then [Issue(NamePath, NameRequired)] else []
  }

  /** The object part of `RegisterSchema`: every field's checks. The issues
      are exactly: "Name is required" for an empty name, the e-mail issue for
      an invalid e-mail, the password rules' issues, and the too-short issue
      on `confirm_password` for a short confirmation. */
  function RegisterFieldIssues(input: RegisterInput, isEmail: string -> bool): (issues: seq<Issue>)
    ensures forall x :: x in issues <==>
      || (x == Issue(NamePath, NameRequired) && input.name == "")
      || (x == Issue(EmailPath, InvalidEmail) && !isEmail(input.email))
      || x in PasswordIssues(input.password)
      || (x == Issue(ConfirmPasswordPath, TooShort) && Utf16Length(input.confirmPassword) < MinPasswordLength)
    ensures forall x :: x in issues ==> x.path != DeviceNamePath
  {
    var name := NameIssues(input.name);
    var email := if isEmail(input.email) then [] else [Issue(EmailPath, InvalidEmail)];
    var password := PasswordIssues(input.password);
    var confirm := MinLengthIssues(ConfirmPasswordPath, input.confirmPassword);
    var issues := name + email + password + confirm;
    assert forall x :: x in issues <==> x in name || x in email || x in password || x in confirm;
    issues
  }

  /** `RegisterSchema`: the field checks, then the refinement that the
      confirmation equals the password, reported on `confirm_password`. */
  function RegisterIssues(input: RegisterInput, isEmail: string -> bool): (issues: seq<Issue>)
    ensures forall x :: x in issues <==>
      x in RegisterFieldIssues(input, isEmail)
      || (x == Issue(ConfirmPasswordPath, PasswordsDoNotMatch) && input.password != input.confirmPassword)
    ensures forall x :: x in issues ==> x.path != DeviceNamePath
  {
    var fields := RegisterFieldIssues(input, isEmail);
    var refinement := if input.password == input.confirmPassword then [] else [Issue(ConfirmPasswordPath, PasswordsDoNotMatch)];
    var issues := fields + refinement;
    assert forall x :: x in issues <==> x in fields || x in refinement;
    issues
  }

  /** Each register issue appears exactly when its condition holds, and the
      issues on the password path are exactly the password rules' issues. */
  lemma RegisterIssueConditions(input: RegisterInput, isEmail: string -> bool)
    ensures var issues := RegisterIssues(input, isEmail);
      && (Issue(NamePath, NameRequired) in issues <==> input.name == "")
      && (Issue(EmailPath, InvalidEmail) in issues <==> !isEmail(input.email))
      && (Issue(ConfirmPasswordPath, PasswordsDoNotMatch) in issues <==> input.password != input.confirmPassword)
      && (Issue(ConfirmPasswordPath, TooShort) in issues <==> Utf16Length(input.confirmPassword) < MinPasswordLength)
      && (forall x :: x in issues && x.path == PasswordPath <==> x in PasswordIssues(input.password))
  {
    var password := PasswordIssues(input.password);
    assert Issue(NamePath, NameRequired) !in password && Issue(EmailPath, InvalidEmail) !in password;
    assert Issue(ConfirmPasswordPath, TooShort) !in password;
    assert Issue(ConfirmPasswordPath, PasswordsDoNotMatch) !in password;
  }

  /** Register accepts exactly a non-empty name, a valid email, a strong
      password and a confirmation equal to it. */
  lemma RegisterAcceptedIff(input: RegisterInput, isEmail: string -> bool)
    ensures RegisterIssues(input, isEmail) == [] <==>
      input.name != "" && isEmail(input.email) && StrongPassword(input.password)
      && input.confirmPassword == input.password
  {
    PasswordAcceptedIffStrong(input.password);
    var issues := RegisterIssues(input, isEmail);
    if issues != [] {
      assert issues[0] in issues;
    }
    assert Utf16Length(input.name) < 1 <==> input.name == "";
  }

  /** The optional `device_name` never affects validation. */
  lemma DeviceNameIgnored(login: LoginInput, register: RegisterInput, deviceName: Option<string>, isEmail: string -> bool)
    ensures LoginIssues(login.(deviceName := deviceName), isEmail) == LoginIssues(login, isEmail)
    ensures RegisterIssues(register.(deviceName := deviceName), isEmail) == RegisterIssues(register, isEmail)
  {
  }

  /** A word of at least eight lowercase letters passes the login password
      rule and fails the register one. */
  lemma LowercaseWordLoginOnly(s: string, email: string, isEmail: string -> bool)
    requires isEmail(email)
    requires |s| >= MinPasswordLength && forall i :: 0 <= i < |s| ==> IsLower(s[i])
    ensures LoginIssues(LoginInput(email, s, None), isEmail) == []
    ensures !StrongPassword(s)
  {
    assert forall i :: 0 <= i < |s| ==> s[i] as int <= 0xFFFF;
  }

  /** Login only checks the password's length: every password register
      accepts passes login, and `abcdefgh` passes login but not register. */
  lemma LoginPasswordWeakerThanRegister(p: string, email: string, isEmail: string -> bool)
    requires isEmail(email)
    ensures StrongPassword(p) ==> LoginIssues(LoginInput(email, p, None), isEmail) == []
    ensures LoginIssues(LoginInput(email, "abcdefgh", None), isEmail) == []
    ensures !StrongPassword("abcdefgh")
  {
    var weak := "abcdefgh";
    assert |weak| == 8 && forall i :: 0 <= i < |weak| ==> IsLower(weak[i]);
    LowercaseWordLoginOnly(weak, email, isEmail);
  }

  // ---------------------------------------------------------------------------
  // The 422 validation error shapes

  /** `z.array(z.string())` on a list of JSON values. */
  function StringArray(items: seq<Json>): (r: Option<seq<string>>)
    ensures r.Some? <==> forall i :: 0 <= i < |items| ==> items[i].JString?
    ensures r.Some? ==> |r.value| == |items| && forall i :: 0 <= i < |items| ==> items[i] == JString(r.value[i])
  {
    if items == [] then Some([])
    else match (items[0], StringArray(items[1..]))
      case (JString(s), Some(rest)) => Some([s] + rest)
      case _ => None
  }

  /** `z.array(z.string()).optional()` on one key of an object: absent is
      fine, present must be an array of strings. */
  datatype FieldParse = Absent | Strings(items: seq<string>) | Rejected

  function OptionalStrings(fields: map<string, Json>, key: string): (r: FieldParse)
    ensures r == Absent <==> key !in fields
    ensures r.Strings? <==> key in fields && fields[key].JArray? && StringArray(fields[key].items).Some?
    ensures r.Strings? ==> r.items == StringArray(fields[key].items).value
  {
    if key !in fields then Absent
    else match fields[key]
      case JArray(items) => (match StringArray(items) case Some(strings) => Strings(strings) case None => Rejected)
      case _ => Rejected
  }

  /** The parsed value of an accepted field: absent, or its strings. */
  function ParsedField(f: FieldParse): (r: Option<seq<string>>)
    requires !f.Rejected?
    ensures r.None? <==> f.Absent?
    ensures r.Some? ==> r.value == f.items
  {
    if f.Strings? then Some(f.items) else None
  }

  datatype LoginValidationError = LoginValidationError(email: Option<seq<string>>, password: Option<seq<string>>)

  datatype RegisterValidationError = RegisterValidationError(
    name: Option<seq<string>>, email: Option<seq<string>>,
    password: Option<seq<string>>, confirmPassword: Option<seq<string>>)

  /** `LoginValidationErrorSchema.safeParse(error)`. */
  function ParseLoginValidationError(fields: map<string, Json>): (r: Option<LoginValidationError>)
    ensures r.Some? <==> OptionalStrings(fields, "email") != Rejected && OptionalStrings(fields, "password") != Rejected
    ensures r.Some? ==> r.value.email == ParsedField(OptionalStrings(fields, "email"))
    ensures r.Some? ==> r.value.password == ParsedField(OptionalStrings(fields, "password"))
  {
    var email := OptionalStrings(fields, "email");
    var password := OptionalStrings(fields, "password");
    if email.Rejected? || password.Rejected? then None
    else Some(LoginValidationError(ParsedField(email), ParsedField(password)))
  }

  /** `RegisterValidationErrorSchema.safeParse(error)`. */
  function ParseRegisterValidationError(fields: map<string, Json>): (r: Option<RegisterValidationError>)
    ensures r.Some? <==>
      && OptionalStrings(fields, "name") != Rejected && OptionalStrings(fields, "email") != Rejected
      && OptionalStrings(fields, "password") != Rejected && OptionalStrings(fields, "confirm_password") != Rejected
    ensures r.Some? ==> r.value.name == ParsedField(OptionalStrings(fields, "name"))
    ensures r.Some? ==> r.value.email == ParsedField(OptionalStrings(fields, "email"))
    ensures r.Some? ==> r.value.password == ParsedField(OptionalStrings(fields, "password"))
    ensures r.Some? ==> r.value.confirmPassword == ParsedField(OptionalStrings(fields, "confirm_password"))
  {
    var name := OptionalStrings(fields, "name");
    var email := OptionalStrings(fields, "email");
    var password := OptionalStrings(fields, "password");
    var confirm := OptionalStrings(fields, "confirm_password");
    if name.Rejected? || email.Rejected? || password.Rejected? || confirm.Rejected? then None
    else Some(RegisterValidationError(ParsedField(name), ParsedField(email), ParsedField(password), ParsedField(confirm)))
  }

  /** Every field of both shapes is optional: an object without any of their
      keys conforms to both, with every field absent. */
  lemma MissingKeysConform(fields: map<string, Json>)
    requires "email" !in fields && "password" !in fields && "name" !in fields && "confirm_password" !in fields
    ensures ParseLoginValidationError(fields) == Some(LoginValidationError(None, None))
    ensures ParseRegisterValidationError(fields) == Some(RegisterValidationError(None, None, None, None))
  {
  }
}

=== FILE: badge.dfy ===
/** The count shown inside a badge: `getCount` caps a numeric count at
    `maxCount`, displaying `"{maxCount}+"` instead, and leaves everything
    else as it was given. */
module Badge {
  import opened Wrappers
  import opened JsText

  /** The badge's children as `getCount` inspects them. A JavaScript number
      is an integer or `NaN` here; `Node` is any other React node (an
      element, a boolean, `null`, an array). */
  datatype Count =
    | Text(text: string)
    | Number(value: int)
    | NotANumber
    | Node(id: nat)

  /** `` `${maxCount}+` ``. */
  function CappedText(maxCount: int): string {
    IntToString(maxCount) + "+"
  }

  /** The number a count stands for, when it stands for one: a number, or a
      string that is all decimal digits once trimmed. */
  function NumericValue(count: Count): Option<int> {
    match count
    case Number(n) => Some(n)
    case Text(s) => if IsDecimalText(Trim(s)) then Some(DecimalValue(Trim(s))) else None
    case _ => None
  }

  /** `getCount(count, maxCount)`. */
  function GetCount(count: Count, maxCount: Option<int>): (r: Count)
    ensures maxCount.None? ==> r == count
    ensures NumericValue(count).None? ==> r == count
    ensures maxCount.Some? && NumericValue(count).Some? && NumericValue(count).value <= maxCount.value ==> r == count
    ensures maxCount.Some? && NumericValue(count).Some? && NumericValue(count).value > maxCount.value ==>
      r == Text(CappedText(maxCount.value))
  {
    if maxCount.None? then count
    else if !(count.Text? || count.Number? || count.NotANumber?) then count
    else if count.Text? && !IsDecimalText(Trim(count.text)) then count
    else
      var countNumber: Option<int> :=
        match count
        case Number(n) => Some(n)
        case Text(s) => Some(DecimalValue(Trim(s)))
        case _ => None;
      if countNumber.None? then count
      else if countNumber.value <= maxCount.value then count
      else Text(CappedText(maxCount.value))
  }

  /** The capped text is never itself read as a number: it ends in `+`. */
  lemma CappedTextNotNumeric(maxCount: int)
    ensures NumericValue(Text(CappedText(maxCount))) == None
  {
    var s := CappedText(maxCount);
    TrimUnpadded(s);
    assert s[|s| - 1] == '+';
  }

  /** A badge never displays a number above its maximum. */
  lemma DisplayedWithinMax(count: Count, maxCount: int)
    ensures var shown := NumericValue(GetCount(count, Some(maxCount)));
      shown.None? || shown.value <= maxCount
  {
    CappedTextNotNumeric(maxCount);
  }

  /** Capping twice is capping once. */
  lemma GetCountIdempotent(count: Count, maxCount: Option<int>)
    ensures GetCount(GetCount(count, maxCount), maxCount) == GetCount(count, maxCount)
  {
    if maxCount.Some? {
      CappedTextNotNumeric(maxCount.value);
    }
  }
}

=== FILE: button.dfy ===
/** The colour helper of the button component: `convertToRGBA` turns a CSS
    `rgb(...)` colour and an opacity into an `rgba(...)` colour, and the
    Android ripple table is built from it when the module loads. */
module Button {
  import opened Wrappers
  import opened JsText

  const InvalidFormat := "Invalid RGB color format"
  const InvalidOpacity := "Opacity must be a number between 0 and 1"

  /** A JavaScript number passed as opacity: its value and the text
      `String(value)` renders it as. The rendering is taken as given. */
  datatype Opacity = Opacity(value: real, text: string)

  /** The colour text `rgba(r,g,b,a)` with no spaces. */
  function RgbaText(red: nat, green: nat, blue: nat, alpha: string): string {
    "rgba(" + NatToString(red) + "," + NatToString(green) + "," + NatToString(blue) + "," + alpha + ")"
  }

  /** The colour text `rgb(r, g, b)` as the theme writes it. */
  function RgbText(red: nat, green: nat, blue: nat): string {
    "rgb(" + (NatToString(red) + (", " + (NatToString(green) + (", " + (NatToString(blue) + ")")))))
  }

  /** `convertToRGBA(rgb, opacity)`: the three digit runs of `rgb` become the
      channels; the format is checked before the opacity. */
  function ConvertToRgba(rgb: string, opacity: Opacity): (r: Result<string, string>)
    ensures r.Success? <==> |DigitRuns(rgb)| == 3 && 0.0 <= opacity.value <= 1.0
    ensures |DigitRuns(rgb)| != 3 ==> r == Failure(InvalidFormat)
    ensures |DigitRuns(rgb)| == 3 && r.Failure? ==> r.error == InvalidOpacity
    ensures r.Success? ==>
      var runs := DigitRuns(rgb);
      r.value == RgbaText(DecimalValue(runs[0]), DecimalValue(runs[1]), DecimalValue(runs[2]), opacity.text)
  {
    var runs := DigitRuns(rgb);
    if |runs| != 3 then Failure(InvalidFormat)
    else
      var red := DecimalValue(runs[0]);
      var green := DecimalValue(runs[1]);
      var blue := DecimalValue(runs[2]);
      if opacity.value < 0.0 || opacity.value > 1.0 then Failure(InvalidOpacity)
      else Success(RgbaText(red, green, blue, opacity.text))
  }

  /** The digit runs of `rgb(r, g, b)` are the three numerals, in order. */
  lemma RgbTextRuns(red: nat, green: nat, blue: nat)
    ensures DigitRuns(RgbText(red, green, blue)) == [NatToString(red), NatToString(green), NatToString(blue)]
  {
    var r, g, b := NatToString(red), NatToString(green), NatToString(blue);
    var t3 := b + ")";
    var t2 := g + (", " + t3);
    var t1 := r + (", " + t2);
    DigitRunsOfText(")");
    DigitRunsNumeralThen(b, ")");
    DigitRunsNumeralSeparator(g, ", ", t3);
    DigitRunsNumeralSeparator(r, ", ", t2);
    DigitRunsAfterText("rgb(", t1);
  }

  /** Round trip: converting a theme colour `rgb(r, g, b)` with an opacity in
      [0, 1] gives `rgba(r,g,b,opacity)` with the same channels. */
  lemma RgbRoundTrip(red: nat, green: nat, blue: nat, opacity: Opacity)
    requires 0.0 <= opacity.value <= 1.0
    ensures ConvertToRgba(RgbText(red, green, blue), opacity) == Success(RgbaText(red, green, blue, opacity.text))
  {
    RgbTextRuns(red, green, blue);
    DecimalRoundTrip(red);
    DecimalRoundTrip(green);
    DecimalRoundTrip(blue);
  }

  /** The colour text `rgba(r, g, b, w.f)` with a fractional alpha, as the
      theme writes its translucent colours. */
  function FractionalRgbaText(red: nat, green: nat, blue: nat, whole: string, fraction: string): string {
    "rgba(" + (NatToString(red) + (", " + (NatToString(green) + (", " + (NatToString(blue) + (", " + (whole + ("." + (fraction + ")")))))))))
  }

  /** An `rgba(r, g, b, w.f)` colour has five digit runs, so it is rejected
      as a format error whatever the opacity. */
  lemma FractionalAlphaRejected(red: nat, green: nat, blue: nat, whole: string, fraction: string, opacity: Opacity)
    requires IsDecimalText(whole) && IsDecimalText(fraction)
    ensures ConvertToRgba(FractionalRgbaText(red, green, blue, whole, fraction), opacity) == Failure(InvalidFormat)
  {
    FractionalRgbaRuns(red, green, blue, whole, fraction);
  }

  lemma FractionalRgbaRuns(red: nat, green: nat, blue: nat, whole: string, fraction: string)
    requires IsDecimalText(whole) && IsDecimalText(fraction)
    ensures |DigitRuns(FractionalRgbaText(red, green, blue, whole, fraction))| == 5
  {
    var r, g, b := NatToString(red), NatToString(green), NatToString(blue);
    var t4 := whole + ("." + (fraction + ")"));
    var t3 := b + (", " + t4);
    var t2 := g + (", " + t3);
    var t1 := r + (", " + t2);
    DigitRunsAfterText(")", []);
    assert ")" + [] == ")";
    DigitRunsNumeralSeparator(fraction, ")", []);
    assert fraction + (")" + []) == fraction + ")";
    DigitRunsNumeralSeparator(whole, ".", fraction + ")");
    DigitRunsNumeralSeparator(b, ", ", t4);
    DigitRunsNumeralSeparator(g, ", ", t3);
    DigitRunsNumeralSeparator(r, ", ", t2);
    DigitRunsAfterText("rgba(", t1);
  }

  // ---------------------------------------------------------------------------
  // The Android ripple table

  datatype ColorScheme = Light | Dark
  datatype Variant = Primary | Secondary | Plain | Tonal

  /** The theme's neutral colours the ripple table reads. */
  const DarkNeutral300 := "rgb(209, 209, 209)"
  const DarkNeutral500 := "rgb(123, 123, 123)"
  const LightNeutral400 := "rgb(163, 163, 163)"
  const LightNeutral500 := "rgb(123, 123, 123)"
  const LightNeutral600 := "rgb(92, 92, 92)"

  const Opacity04 := Opacity(0.4, "0.4")
  const Opacity08 := Opacity(0.8, "0.8")

  /** The colour and opacity each ripple entry is built from. */
  function RippleInput(scheme: ColorScheme, variant: Variant): (string, Opacity) {
    match (scheme, variant)
    case (Dark, Primary) => (DarkNeutral300, Opacity04)
    case (Dark, _) => (DarkNeutral500, Opacity08)
    case (Light, Primary) => (LightNeutral400, Opacity04)
    case (Light, Tonal) => (LightNeutral600, Opacity04)
    case (Light, _) => (LightNeutral500, Opacity04)
  }

  /** `ANDROID_RIPPLE[scheme][variant].color`. */
  function RippleColor(scheme: ColorScheme, variant: Variant): Result<string, string> {
    var (rgb, opacity) := RippleInput(scheme, variant);
    ConvertToRgba(rgb, opacity)
  }

  /** The grey level of the neutral colour each ripple entry is built from. */
  function RippleGrey(scheme: ColorScheme, variant: Variant): nat {
    match (scheme, variant)
    case (Dark, Primary) => 209
    case (Dark, _) => 123
    case (Light, Primary) => 163
    case (Light, Tonal) => 92
    case (Light, _) => 123
  }

  /** The neutral colours are the theme's `rgb(g, g, g)` greys. */
  lemma Neutral300Text()
    ensures RgbText(209, 209, 209) == DarkNeutral300
  {
    ThreeDigitNumeral(209);
    assert NatToString(209) == "209";
  }

  lemma Neutral400Text()
    ensures RgbText(163, 163, 163) == LightNeutral400
  {
    ThreeDigitNumeral(163);
    assert NatToString(163) == "163";
  }

  lemma Neutral500Text()
    ensures RgbText(123, 123, 123) == DarkNeutral500 == LightNeutral500
  {
    ThreeDigitNumeral(123);
    assert NatToString(123) == "123";
  }

  lemma Neutral600Text()
    ensures RgbText(92, 92, 92) == LightNeutral600
  {
    TwoDigitNumeral(92);
    assert NatToString(92) == "92";
  }

  /** Every one of the eight ripple colours converts without an error, to
      the neutral colour's grey level with the entry's opacity. */
  lemma RippleColorsConvert(scheme: ColorScheme, variant: Variant)
    ensures var grey := RippleGrey(scheme, variant);
      RippleColor(scheme, variant) == Success(RgbaText(grey, grey, grey, RippleInput(scheme, variant).1.text))
  {
    var (rgb, opacity) := RippleInput(scheme, variant);
    var grey := RippleGrey(scheme, variant);
    match grey {
      case 209 => Neutral300Text();
      case 163 => Neutral400Text();
      case 123 => Neutral500Text();
      case 92 => Neutral600Text();
    }
    RgbRoundTrip(grey, grey, grey, opacity);
  }
}

=== FILE: device.dfy ===
/** The device name sent with a login: a caller's custom name, or one built
    from the platform, the device model and the application version. */
module Device {
  import opened Wrappers
  import opened JsText

  /** What the device probe reads: `Platform.OS`, the native application
      version and the model name (either may be missing). `Threw` stands for
      gathering this information throwing. */
  datatype Probe =
    | Threw
    | Read(platform: string, appVersion: Option<string>, modelName: Option<string>)

  const AppName := "ExpenseTrackr"
  const FallbackName := "ExpenseTrackr Mobile"
  const Unknown := "unknown"

  /** `Platform.OS === 'ios' ? 'iOS' : 'Android'`. */
  function PlatformLabel(platform: string): (shown: string)
    ensures shown == "iOS" <==> platform == "ios"
    ensures shown == "iOS" || shown == "Android"
  {
    if platform == "ios" then "iOS" else "Android"
  }

  /** `nativeApplicationVersion || 'unknown'`. */
  function AppVersion(probe: Probe): string
    requires probe.Read?
  {
    Or(probe.appVersion, Some(Unknown)).value
  }

  /** The model when the probe knows it: present, not empty, not `'unknown'`. */
  function KnownModel(probe: Probe): Option<string>
    requires probe.Read?
  {
    var model := Or(probe.modelName, Some(Unknown)).value;
    if model != Unknown then Some(model) else None
  }

  /** `parts.filter(Boolean)`: the truthy parts, in order. */
  function TruthyParts(parts: seq<Option<string>>): (r: seq<string>)
    ensures forall i :: 0 <= i < |r| ==> r[i] != ""
    ensures |r| <= |parts|
  {
    if parts == [] then []
    else (if Truthy(parts[0]) then [parts[0].value] else []) + TruthyParts(parts[1..])
  }

  /** `parts.join(sep)`. */
  function Join(parts: seq<string>, sep: string): string {
    if parts == [] then ""
    else if |parts| == 1 then parts[0]
    else parts[0] + sep + Join(parts[1..], sep)
  }

  /** `generateDeviceName(customName)`: a truthy custom name verbatim;
      otherwise `ExpenseTrackr <iOS|Android> [model] v<version>` joined by
      single spaces, the model left out when unknown; `ExpenseTrackr Mobile`
      when the device information cannot be read. */
  function GenerateDeviceName(customName: Option<string>, probe: Probe): (r: string)
    ensures Truthy(customName) ==> r == customName.value
    ensures !Truthy(customName) && probe.Threw? ==> r == FallbackName
    ensures !Truthy(customName) && probe.Read? ==>
      r == AppName + " " + PlatformLabel(probe.platform)
           + (if KnownModel(probe).Some? then " " + KnownModel(probe).value else "")
           + " v" + AppVersion(probe)
  {
    if Truthy(customName) then customName.value
    else match probe
      case Threw => FallbackName
      case Read(platform, _, _) =>
        var parts := [Some(AppName), Some(PlatformLabel(platform)), KnownModel(probe), Some("v" + AppVersion(probe))];
        JoinedParts(probe, parts);
        Join(TruthyParts(parts), " ")
  }

  /** Filtering and joining the four parts gives the closed form above. */
  lemma JoinedParts(probe: Probe, parts: seq<Option<string>>)
    requires probe.Read?
    requires parts == [Some(AppName), Some(PlatformLabel(probe.platform)), KnownModel(probe), Some("v" + AppVersion(probe))]
    ensures Join(TruthyParts(parts), " ") ==
      AppName + " " + PlatformLabel(probe.platform)
      + (if KnownModel(probe).Some? then " " + KnownModel(probe).value else "")
      + " v" + AppVersion(probe)
  {
    var a, p, v := AppName, PlatformLabel(probe.platform), "v" + AppVersion(probe);
    var p3 := parts[3..];
    var p2 := parts[2..];
    var p1 := parts[1..];
    assert p3[1..] == [] && p3[0] == Some(v);
    assert TruthyParts(p3) == [v];
    assert p2[1..] == p3 && p1[1..] == p2 && parts[1..] == p1;
    var rest := if KnownModel(probe).Some? then [KnownModel(probe).value, v] else [v];
    assert TruthyParts(p2) == rest;
    assert TruthyParts(p1) == [p] + rest;
    assert TruthyParts(parts) == [a, p] + rest;
    assert ([a, p] + rest)[1..] == [p] + rest;
    assert ([p] + rest)[1..] == rest;
    if KnownModel(probe).Some? {
      var m := KnownModel(probe).value;
      assert rest[1..] == [v];
      assert Join(rest, " ") == m + " " + v;
    } else {
      assert Join(rest, " ") == v;
    }
  }

  /** `generateSimpleDeviceName(customName)`. */
  function GenerateSimpleDeviceName(customName: Option<string>, platform: string): (r: string)
    ensures Truthy(customName) ==> r == customName.value
    ensures !Truthy(customName) ==> (r == "ExpenseTrackr iOS" <==> platform == "ios")
    ensures !Truthy(customName) ==> (r == "ExpenseTrackr Android" <==> platform != "ios")
  {
    if Truthy(customName) then customName.value
    else AppName + " " + PlatformLabel(platform)
  }

  /** Both generators agree on a custom name, and without one the simple
      name begins the detailed one. */
  lemma SimpleNameBeginsDetailedName(customName: Option<string>, probe: Probe)
    requires probe.Read?
    ensures var simple := GenerateSimpleDeviceName(customName, probe.platform);
      var detailed := GenerateDeviceName(customName, probe);
      if Truthy(customName) then simple == detailed
      else |simple| < |detailed| && detailed[..|simple| + 1] == simple + " "
  {
    if !Truthy(customName) {
      var simple := GenerateSimpleDeviceName(customName, probe.platform);
      var detailed := GenerateDeviceName(customName, probe);
      var rest := (if KnownModel(probe).Some? then " " + KnownModel(probe).value else "") + " v" + AppVersion(probe);
      assert detailed == simple + rest;
      assert rest[0] == ' ';
      assert detailed[..|simple| + 1] == simple + [rest[0]];
    }
  }
}

=== FILE: fetch.dfy ===
/** The request and response shapes of the HTTP client the authentication
    code calls. The transport itself is not modelled: a response (or a
    thrown exception) is given as input. */
module Fetch {
  import opened Wrappers

  /** JSON values as they arrive in a response body. */
  datatype Json =
    | JNull
    | JBool(b: bool)
    | JNumber(n: real)
    | JString(s: string)
    | JArray(items: seq<Json>)
    | JObject(fields: map<string, Json>)

  function Field(fields: map<string, Json>, key: string): Option<Json> {
    if key in fields then Some(fields[key]) else None
  }

  /** A POST to `path` with a JSON `body`. */
  datatype Request<B> = Request(path: string, body: B)

  /** The `error` the client reports for a failed response: the HTTP status
      and status text together with the fields of the response body. */
  datatype FetchError = FetchError(status: int, statusText: string, body: map<string, Json>)

  /** `{ data, error }`: exactly one of the two is set. */
  datatype Response<T> = Data(data: T) | Error(error: FetchError)

  /** Awaiting the client: a response, or a thrown exception. */
  datatype Call<T> = Responded(response: Response<T>) | Threw
}

=== FILE: jstext.dfy ===
/** Strings as JavaScript sees them: the regular-expression classes `\d`,
    `[a-z]`, `[A-Z]`, `String.prototype.trim`, `indexOf`, the UTF-16 length
    that `.length` reports, decimal numerals (`parseInt(s, 10)`, `String(n)`)
    and the global match `s.match(/\d+/g)`. */
module JsText {
  import opened Wrappers

  predicate IsDigit(c: char) { '0' <= c <= '9' }
  predicate IsLower(c: char) { 'a' <= c <= 'z' }
  predicate IsUpper(c: char) { 'A' <= c <= 'Z' }
  predicate IsAlphanumeric(c: char) { IsDigit(c) || IsLower(c) || IsUpper(c) }

  predicate AllDigits(s: string) {
    forall i :: 0 <= i < |s| ==> IsDigit(s[i])
  }

  /** `s` matches `/^\d+$/`. */
  predicate IsDecimalText(s: string) {
    s != [] && AllDigits(s)
  }

  /** JavaScript truthiness of an optional string: present and not empty. */
  predicate Truthy(s: Option<string>) {
    s.Some? && s.value != ""
  }

  /** `a || b` on optional strings: `a` when truthy, otherwise `b`. */
  function Or(a: Option<string>, b: Option<string>): (r: Option<string>)
    ensures Truthy(a) ==> r == a
    ensures !Truthy(a) ==> r == b
  {
    if Truthy(a) then a else b
  }

  /** The ECMAScript WhiteSpace and LineTerminator code points: what `trim` removes. */
  predicate IsJsWhitespace(c: char) {
    var n := c as int;
    || n == 0x09 || n == 0x0A || n == 0x0B || n == 0x0C || n == 0x0D || n == 0x20
    || n == 0xA0 || n == 0x1680 || 0x2000 <= n <= 0x200A || n == 0x2028 || n == 0x2029
    || n == 0x202F || n == 0x205F || n == 0x3000 || n == 0xFEFF
  }

  // ---------------------------------------------------------------------------
  // Length in UTF-16 code units

  /** `s.length` in JavaScript: a code point above U+FFFF is a surrogate pair. */
  function Utf16Length(s: string): (n: nat)
    ensures |s| <= n <= 2 * |s|
    ensures n == |s| <==> forall i :: 0 <= i < |s| ==> s[i] as int <= 0xFFFF
  {
    if s == [] then 0
    else (if s[0] as int > 0xFFFF then 2 else 1) + Utf16Length(s[1..])
  }

  // ---------------------------------------------------------------------------
  // trim

  /** Every character of `s` is ECMAScript whitespace. */
  predicate AllWhitespace(s: string) {
    forall k :: 0 <= k < |s| ==> IsJsWhitespace(s[k])
  }

  function TrimStart(s: string): (r: string)
    ensures |r| <= |s| && r == s[|s| - |r|..] && AllWhitespace(s[..|s| - |r|])
    ensures r == [] || !IsJsWhitespace(r[0])
  {
    if s != [] && IsJsWhitespace(s[0]) then
      var r := TrimStart(s[1..]);
      assert s[..|s| - |r|] == [s[0]] + s[1..][..|s| - 1 - |r|];
      r
    else s
  }

  function TrimEnd(s: string): (r: string)
    ensures |r| <= |s| && r == s[..|r|] && AllWhitespace(s[|r|..])
    ensures r == [] || !IsJsWhitespace(r[|r| - 1])
  {
    if s != [] && IsJsWhitespace(s[|s| - 1]) then
      var r := TrimEnd(s[..|s| - 1]);
      assert s[|r|..] == s[..|s| - 1][|r|..] + [s[|s| - 1]];
      r
    else s
  }

  /** `s.trim()`: the middle of `s` left once the whitespace at both ends is
      removed; no whitespace is left at either end. */
  function Trim(s: string): (r: string)
    ensures exists i, j :: 0 <= i <= j <= |s| && r == s[i..j] && AllWhitespace(s[..i]) && AllWhitespace(s[j..])
    ensures r == [] || (!IsJsWhitespace(r[0]) && !IsJsWhitespace(r[|r| - 1]))
  {
    var e := TrimEnd(s);
    var r := TrimStart(e);
    r
  }

  /** Trimming leaves a string that already has no whitespace at its ends alone. */
  lemma TrimUnpadded(s: string)
    requires s != [] && !IsJsWhitespace(s[0]) && !IsJsWhitespace(s[|s| - 1])
    ensures Trim(s) == s
  {
    var e := TrimEnd(s);
    assert e == s;
    assert TrimStart(e) == e;
  }

  // ---------------------------------------------------------------------------
  // indexOf

  predicate OccursAt(s: string, pat: string, i: int) {
    0 <= i && i + |pat| <= |s| && s[i..i + |pat|] == pat
  }

  predicate Contains(s: string, pat: string) {
    exists i :: 0 <= i <= |s| && OccursAt(s, pat, i)
  }

  function IndexOfFrom(s: string, pat: string, from: nat): (r: int)
    requires from <= |s|
    ensures r == -1 || (from <= r && OccursAt(s, pat, r))
    ensures r == -1 ==> forall i :: from <= i ==> !OccursAt(s, pat, i)
    ensures r != -1 ==> forall i :: from <= i < r ==> !OccursAt(s, pat, i)
    decreases |s| - from
  {
    if OccursAt(s, pat, from) then from
    else if from + |pat| >= |s| then -1
    else IndexOfFrom(s, pat, from + 1)
  }

  /** `s.indexOf(pat)`: the first position where `pat` occurs, or -1. */
  function IndexOf(s: string, pat: string): (r: int)
    ensures r == -1 <==> !Contains(s, pat)
    ensures r != -1 ==> OccursAt(s, pat, r) && forall i :: 0 <= i < r ==> !OccursAt(s, pat, i)
  {
    IndexOfFrom(s, pat, 0)
  }

  // ---------------------------------------------------------------------------
  // Decimal numerals

  function DigitValue(c: char): (d: nat)
    requires IsDigit(c)
    ensures d < 10
  {
    c as int - '0' as int
  }

  function DigitChar(d: nat): (c: char)
    requires d < 10
    ensures IsDigit(c) && DigitValue(c) == d
  {
    ('0' as int + d) as char
  }

  /** `parseInt(s, 10)` of a string of decimal digits, read exactly. */
  function DecimalValue(s: string): nat
    requires AllDigits(s)
  {
    if s == [] then 0 else 10 * DecimalValue(s[..|s| - 1]) + DigitValue(s[|s| - 1])
  }

  /** `String(n)` for a non-negative integer: decimal digits without leading zeros. */
  function NatToString(n: nat): (s: string)
    ensures IsDecimalText(s)
    ensures s[0] == '0' ==> n == 0
    decreases n
  {
    if n < 10 then [DigitChar(n)] else NatToString(n / 10) + [DigitChar(n % 10)]
  }

  lemma TwoDigitNumeral(n: nat)
    requires 10 <= n < 100
    ensures NatToString(n) == [DigitChar(n / 10), DigitChar(n % 10)]
  {
    assert NatToString(n / 10) == [DigitChar(n / 10)];
  }

  lemma ThreeDigitNumeral(n: nat)
    requires 100 <= n < 1000
    ensures NatToString(n) == [DigitChar(n / 100), DigitChar(n / 10 % 10), DigitChar(n % 10)]
  {
    TwoDigitNumeral(n / 10);
    assert n / 10 / 10 == n / 100;
  }

  /** `String(i)` for an integer: the numeral of `i`, after a `-` when `i`
      is negative. */
  function IntToString(i: int): (s: string)
    ensures s != [] && (s[0] == '-' || IsDigit(s[0])) && IsDigit(s[|s| - 1])
    ensures i >= 0 ==> IsDecimalText(s) && DecimalValue(s) == i
    ensures i < 0 ==> s[0] == '-' && IsDecimalText(s[1..]) && DecimalValue(s[1..]) == -i
  {
    if i < 0 then
      var digits := NatToString(-i);
      DecimalRoundTrip(-i);
      assert ("-" + digits)[1..] == digits;
      "-" + digits
    else
      DecimalRoundTrip(i);
      NatToString(i)
  }

  /** Reading back the numeral `String(n)` yields `n`. */
  lemma {:induction false} DecimalRoundTrip(n: nat)
    ensures DecimalValue(NatToString(n)) == n
    decreases n
  {
    if n >= 10 {
      var s := NatToString(n);
      assert s[..|s| - 1] == NatToString(n / 10);
      DecimalRoundTrip(n / 10);
    }
  }

  // ---------------------------------------------------------------------------
  // s.match(/\d+/g)

  /** Length of the longest prefix of `s` made of decimal digits. */
  function LeadingDigits(s: string): (n: nat)
    ensures n <= |s|
    ensures forall i :: 0 <= i < n ==> IsDigit(s[i])
    ensures n == |s| || !IsDigit(s[n])
  {
    if s == [] || !IsDigit(s[0]) then 0 else 1 + LeadingDigits(s[1..])
  }

  /** The matches of `/\d+/g` in `s`, left to right: its maximal runs of digits. */
  function DigitRuns(s: string): (runs: seq<string>)
    ensures forall k :: 0 <= k < |runs| ==> IsDecimalText(runs[k])
    decreases |s|
  {
    if s == [] then []
    else if !IsDigit(s[0]) then DigitRuns(s[1..])
    else
      var n := LeadingDigits(s);
      [s[..n]] + DigitRuns(s[n..])
  }

  /** The run lengths `LeadingDigits` describes are unique. */
  lemma LeadingDigitsUnique(s: string, n: nat)
    requires n <= |s|
    requires forall i :: 0 <= i < n ==> IsDigit(s[i])
    requires n == |s| || !IsDigit(s[n])
    ensures LeadingDigits(s) == n
  {
    var m := LeadingDigits(s);
    assert m < |s| ==> !IsDigit(s[m]);
  }

  /** A string without digits has no runs. */
  lemma {:induction false} DigitRunsOfText(s: string)
    requires forall i :: 0 <= i < |s| ==> !IsDigit(s[i])
    ensures DigitRuns(s) == []
    decreases |s|
  {
    if s != [] {
      DigitRunsOfText(s[1..]);
    }
  }

  /** Text without digits in front of `rest` adds no runs. */
  lemma {:induction false} DigitRunsAfterText(p: string, rest: string)
    requires forall i :: 0 <= i < |p| ==> !IsDigit(p[i])
    ensures DigitRuns(p + rest) == DigitRuns(rest)
    decreases |p|
  {
    if p != [] {
      assert (p + rest)[1..] == p[1..] + rest;
      DigitRunsAfterText(p[1..], rest);
    } else {
      assert p + rest == rest;
    }
  }

  /** A numeral followed by a non-digit (or nothing) is one run of its own. */
  lemma DigitRunsNumeralThen(d: string, rest: string)
    requires IsDecimalText(d)
    requires rest == [] || !IsDigit(rest[0])
    ensures DigitRuns(d + rest) == [d] + DigitRuns(rest)
  {
    var s := d + rest;
    LeadingDigitsUnique(s, |d|);
    assert s[..|d|] == d;
    assert s[|d|..] == rest;
  }

  /** A numeral, then a separator without digits: the numeral is the next run. */
  lemma DigitRunsNumeralSeparator(d: string, sep: string, rest: string)
    requires IsDecimalText(d)
    requires sep != [] && forall i :: 0 <= i < |sep| ==> !IsDigit(sep[i])
    ensures DigitRuns(d + (sep + rest)) == [d] + DigitRuns(rest)
  {
    DigitRunsNumeralThen(d, sep + rest);
    DigitRunsAfterText(sep, rest);
  }

  /** The digits of `s`, in order, with everything else dropped. */
  function DigitsOf(s: string): (d: string)
    ensures AllDigits(d)
  {
    if s == [] then [] else (if IsDigit(s[0]) then [s[0]] else []) + DigitsOf(s[1..])
  }

  function Concat(parts: seq<string>): string {
    if parts == [] then [] else parts[0] + Concat(parts[1..])
  }

  lemma {:induction false} DigitsOfAppend(x: string, y: string)
    ensures DigitsOf(x + y) == DigitsOf(x) + DigitsOf(y)
    decreases |x|
  {
    if x == [] {
      assert x + y == y;
    } else {
      assert (x + y)[1..] == x[1..] + y;
      DigitsOfAppend(x[1..], y);
    }
  }

  lemma {:induction false} DigitsOfNumeral(d: string)
    requires AllDigits(d)
    ensures DigitsOf(d) == d
    decreases |d|
  {
    if d != [] {
      DigitsOfNumeral(d[1..]);
      assert [d[0]] + d[1..] == d;
    }
  }

  /** The runs, put back together, are exactly the digits of `s`: no digit is lost or invented. */
  lemma {:induction false} DigitRunsCoverDigits(s: string)
    ensures Concat(DigitRuns(s)) == DigitsOf(s)
    decreases |s|
  {
    if s == [] {
    } else if !IsDigit(s[0]) {
      DigitRunsCoverDigits(s[1..]);
    } else {
      var n := LeadingDigits(s);
      var runs := DigitRuns(s);
      assert runs == [s[..n]] + DigitRuns(s[n..]);
      assert runs[1..] == DigitRuns(s[n..]);
      DigitRunsCoverDigits(s[n..]);
      assert s == s[..n] + s[n..];
      DigitsOfAppend(s[..n], s[n..]);
      DigitsOfNumeral(s[..n]);
    }
  }

  /** The scanning matcher: one pass over `s`, collecting each maximal run of digits. */
  method MatchDigitRuns(s: string) returns (runs: seq<string>)
    ensures runs == DigitRuns(s)
  {
    runs := [];
    var i := 0;
    while i < |s|
      invariant 0 <= i <= |s|
      invariant runs + DigitRuns(s[i..]) == DigitRuns(s)
    {
      if !IsDigit(s[i]) {
        assert s[i..][1..] == s[i + 1..];
        i := i + 1;
      } else {
        var j := i + 1;
        while j < |s| && IsDigit(s[j])
          invariant i < j <= |s|
          invariant forall k :: i <= k < j ==> IsDigit(s[k])
        {
          j := j + 1;
        }
        LeadingDigitsUnique(s[i..], j - i);
        assert s[i..][..j - i] == s[i..j];
        assert s[i..][j - i..] == s[j..];
        runs := runs + [s[i..j]];
        i := j;
      }
    }
    assert s[|s|..] == [];
  }
}

=== FILE: query.dfy ===
/** The retry policy of the shared query client. The `retry` callback is
    given `failureCount`, the number of failures before the current one (0
    on the first), so a query is attempted at most four times: the callback
    allows a retry while `failureCount` is below 3, and never for an
    authentication error. A failed mutation is never retried. */
module Query {
  import opened JsText

  /** What a failed query or mutation rejected with: an `Error` (with its
      message) or any other value. */
  datatype Rejection = ErrorValue(message: string) | OtherValue

  datatype Operation = QueryOperation | MutationOperation

  const MaxFailures := 3

  /** `error instanceof Error && error.message.indexOf('401') !== -1`. */
  predicate IsAuthFailure(error: Rejection) {
    error.ErrorValue? && IndexOf(error.message, "401") != -1
  }

  /** The `retry` callback of the query defaults. */
  function RetryQuery(failureCount: int, error: Rejection): (r: bool)
    ensures r <==> failureCount < MaxFailures && !(error.ErrorValue? && Contains(error.message, "401"))
  {
    if failureCount >= MaxFailures then false
    else if IsAuthFailure(error) then false
    else true
  }

  /** Whether the client retries a failure: queries ask `RetryQuery`,
      mutations have `retry: false`. */
  function ShouldRetry(operation: Operation, failureCount: int, error: Rejection): (r: bool)
    ensures r ==> operation == QueryOperation && failureCount < MaxFailures
    ensures r ==> !(error.ErrorValue? && Contains(error.message, "401"))
    ensures operation == QueryOperation ==> r == RetryQuery(failureCount, error)
    ensures operation == MutationOperation ==> !r
  {
    match operation
    case QueryOperation => RetryQuery(failureCount, error)
    case MutationOperation => false
  }

  /** Any error message mentioning 401, wherever it appears, stops the retries. */
  lemma AuthFailureNotRetried(failureCount: int, before: string, after: string)
    ensures !RetryQuery(failureCount, ErrorValue(before + "401" + after))
  {
    var s := before + "401" + after;
    assert s[|before|..|before| + 3] == "401";
    assert OccursAt(s, "401", |before|);
  }

  /** The attempts a query makes from the failure numbered `failureCount`
      on (the current failed attempt included), when every attempt fails
      with `error`: the callback is asked after each failure, with the count
      of earlier failures. */
  function AttemptsFrom(failureCount: nat, error: Rejection): (n: nat)
    ensures n >= 1
    ensures IsAuthFailure(error) ==> n == 1
    ensures !IsAuthFailure(error) && failureCount <= MaxFailures ==> n == MaxFailures + 1 - failureCount
    decreases MaxFailures - failureCount
  {
    if RetryQuery(failureCount, error) then 1 + AttemptsFrom(failureCount + 1, error) else 1
  }

  /** A query that keeps failing is attempted four times in all, unless the
      error is an authentication failure, which stops it after the first. */
  lemma AtMostFourAttempts(error: Rejection)
    ensures AttemptsFrom(0, error) == if IsAuthFailure(error) then 1 else 4
  {
  }
}

=== FILE: sign_in.dfy ===
/** The `signIn` server action: the login request it sends, how a 422 answer
    is reduced to one message, and the replacement of any exception by a
    fixed connectivity message. */
module SignIn {
  import opened Wrappers
  import opened Fetch
  import opened AuthSchemas
  import ApiAuth

  const SignInPath := "/auth/login"
  const SignInDeviceName := "mobile-app"
  const ValidationStatus := 422
  const ConnectivityMessage :=
    "Unable to connect to the server. Please check your internet connection and try again."

  /** Nullish in JavaScript's sense: `undefined` or `null`. */
  predicate Nullish(v: Option<Json>) {
    v.None? || v.value.JNull?
  }

  /** `a ?? b`. */
  function Coalesce(a: Option<Json>, b: Option<Json>): (r: Option<Json>)
    ensures !Nullish(a) ==> r == a
    ensures Nullish(a) ==> r == b
  {
    if Nullish(a) then b else a
  }

  /** `v?.[0]` on a JSON value: the first item of an array, the first code
      unit of a string, the `"0"` member of an object, and `undefined` for
      everything else (including `null`, numbers and booleans). */
  function FirstElement(v: Option<Json>): (r: Option<Json>)
    ensures Nullish(v) ==> r.None?
    ensures v.Some? && v.value.JArray? ==> (r.Some? <==> |v.value.items| > 0)
    ensures v.Some? && v.value.JArray? && r.Some? ==> r.value == v.value.items[0]
    ensures v.Some? && v.value.JString? ==> (r.Some? <==> v.value.s != "")
    ensures v.Some? && v.value.JString? && r.Some? ==> r.value == JString([v.value.s[0]])
    ensures v.Some? && v.value.JObject? ==> r == Field(v.value.fields, "0")
    ensures v.Some? && (v.value.JNumber? || v.value.JBool?) ==> r.None?
  {
    match v
    case None => None
    case Some(JArray(items)) => if items == [] then None else Some(items[0])
    case Some(JString(s)) => if s == [] then None else Some(JString([s[0]]))
    case Some(JObject(fields)) => Field(fields, "0")
    case Some(_) => None
  }

  /** The request `signIn` sends: the input with `device_name` forced to
      `mobile-app`. */
  function SignInRequest(input: LoginInput): (r: Request<LoginInput>)
    ensures r.path == SignInPath
    ensures r.body.email == input.email && r.body.password == input.password
    ensures r.body.deviceName == Some(SignInDeviceName)
  {
    Request(SignInPath, input.(deviceName := Some(SignInDeviceName)))
  }

  /** The device name the caller supplies never reaches the server. */
  lemma SignInIgnoresDeviceName(a: LoginInput, b: LoginInput)
    requires a.email == b.email && a.password == b.password
    ensures SignInRequest(a) == SignInRequest(b)
  {
  }

  /** `response.error.email?.[0] ?? response.error.password?.[0]`. */
  function ValidationMessage(error: FetchError): (r: Option<Json>)
    ensures r.Some? ==> r == FirstElement(Field(error.body, "email")) || r == FirstElement(Field(error.body, "password"))
    ensures Nullish(r) <==> Nullish(FirstElement(Field(error.body, "email"))) && Nullish(FirstElement(Field(error.body, "password")))
    ensures !Nullish(FirstElement(Field(error.body, "email"))) ==> r == FirstElement(Field(error.body, "email"))
    ensures Nullish(FirstElement(Field(error.body, "email"))) ==> r == FirstElement(Field(error.body, "password"))
  {
    Coalesce(FirstElement(Field(error.body, "email")), FirstElement(Field(error.body, "password")))
  }

  /** What `signIn` returns: the response itself, or `{ error: { message } }`. */
  datatype SignInResult = Passed(response: Response<string>) | Validation(message: Option<Json>)

  /** How `signIn` settles: returning a result, or throwing an `Error`. */
  datatype SignInOutcome = Returned(result: SignInResult) | Raised(message: string)

  /** `signIn`, given what awaiting the client produced. */
  function SignIn(call: Call<string>): (r: SignInOutcome)
    ensures call.Threw? <==> r.Raised?
    ensures r.Raised? ==> r.message == ConnectivityMessage
    ensures r.Returned? && r.result.Validation? <==>
      call.Responded? && call.response.Error? && call.response.error.status == ValidationStatus
    ensures r.Returned? && r.result.Validation? ==> r.result.message == ValidationMessage(call.response.error)
    ensures r.Returned? && r.result.Passed? ==> r.result.response == call.response
  {
    match call
    case Threw => Raised(ConnectivityMessage)
    case Responded(response) =>
      if response.Error? && response.error.status == ValidationStatus then
        Returned(Validation(ValidationMessage(response.error)))
      else
        Returned(Passed(response))
  }

  /** On an error body the login hook accepts, `signIn` and the hook agree
      whenever `signIn`'s message is a non-empty string. */
  lemma SignInAgreesWithLoginHook(error: FetchError)
    requires ParseLoginValidationError(error.body).Some?
    ensures var m := ValidationMessage(error);
      m.Some? && m.value.JString? && m.value.s != "" ==>
      ApiAuth.LoginFailureMessage(error) == "Login failed: " + m.value.s
  {
    var e := ParseLoginValidationError(error.body).value;
    ApiAuth.LoginMessagePriority(error);
    FirstElementOfStrings(error.body, "email");
    FirstElementOfStrings(error.body, "password");
    var c := [ApiAuth.FirstMessage(e.email), ApiAuth.FirstMessage(e.password)];
    assert c[1..][1..] == [];
  }

  /** On a field the schema accepts, `?.[0]` on the JSON and on the parsed
      list pick the same message. */
  lemma FirstElementOfStrings(fields: map<string, Json>, key: string)
    requires OptionalStrings(fields, key) != Rejected
    ensures FirstElement(Field(fields, key)) ==
      match ApiAuth.FirstMessage(ParsedField(OptionalStrings(fields, key)))
      case Some(m) => Some(JString(m))
      case None => None
  {
  }

  /** An empty first email message is kept by `signIn` (`??` only skips
      `null` and `undefined`) but skipped by the login hook (`||` skips every
      falsy value), so the two report different messages. */
  lemma EmptyEmailMessageKept(p: string, status: int, statusText: string)
    requires p != ""
    ensures var error := FetchError(status, statusText, map["email" := JArray([JString("")]), "password" := JArray([JString(p)])]);
      && ValidationMessage(error) == Some(JString(""))
      && ApiAuth.LoginFailureMessage(error) == "Login failed: " + p
  {
    var fields := map["email" := JArray([JString("")]), "password" := JArray([JString(p)])];
    var empty, given := [JString("")], [JString(p)];
    assert empty[1..] == [] && given[1..] == [];
    assert [""] + [] == [""] && [p] + [] == [p];
    assert StringArray(empty) == Some([""]);
    assert StringArray(given) == Some([p]);
    assert OptionalStrings(fields, "email") == Strings([""]);
    assert OptionalStrings(fields, "password") == Strings([p]);
    assert ParseLoginValidationError(fields) == Some(LoginValidationError(Some([""]), Some([p])));
    ApiAuth.LoginMessagePriority(FetchError(status, statusText, fields));
    var c := [Some(""), Some(p)];
    assert c[1..][1..] == [];
    assert ApiAuth.FirstTruthy(c) == Some(1);
  }

  /** A failing transport reaches the caller differently: the login hook
      rethrows the client's exception, `signIn` replaces it. */
  lemma TransportFailureHandling()
    ensures ApiAuth.LoginOutcome(Threw) == ApiAuth.Propagated
    ensures SignIn(Threw) == Raised(ConnectivityMessage)
  {
  }
}

=== FILE: storage.dfy ===
/** The session store hook: an observable `[loading, value]` pair kept over a
    key of the platform's secure key-value store. The platform store is a
    map; each platform call either succeeds or fails, as the caller of each
    operation says, and a failed call leaves the store as it was. */
module Storage {
  import opened Wrappers

  type Store = map<string, string>

  function Lookup(store: Store, key: string): Option<string> {
    if key in store then Some(store[key]) else None
  }

  /** `[isLoading, value]`. */
  datatype SessionState = SessionState(loading: bool, value: Option<string>)

  /** `useAsyncState`'s default initial value `[true, null]`. */
  const InitialState := SessionState(true, None)

  /** What `setState` is called with: nothing, or a value (possibly `null`). */
  datatype Action = NoArgument | Dispatch(value: Option<string>)

  /** The reducer: every dispatch ends loading and replaces the value; a
      missing argument counts as `null`. */
  function Reduce(state: SessionState, action: Action): (r: SessionState)
    ensures !r.loading
    ensures action.NoArgument? ==> r.value == None
    ensures action.Dispatch? ==> r.value == action.value
  {
    SessionState(false, match action case NoArgument => None case Dispatch(v) => v)
  }

  /** How a `SecureStore.getItemAsync` call settles. */
  datatype ReadResult = ReadFailed | ReadValue(value: Option<string>)

  /** `SecureStore.getItemAsync(key)`. */
  function GetItem(store: Store, key: string, fails: bool): (r: ReadResult)
    ensures fails <==> r.ReadFailed?
    ensures !fails ==> r.value == Lookup(store, key)
  {
    if fails then ReadFailed else ReadValue(Lookup(store, key))
  }

  /** `setStorageItemAsync(key, value)`: `null` deletes the key, a string is
      stored under it. `None` is a rejected promise. */
  function SetStorageItem(store: Store, key: string, value: Option<string>, fails: bool): (r: Option<Store>)
    ensures fails <==> r.None?
    ensures r.Some? ==> Lookup(r.value, key) == value
    ensures r.Some? ==> forall k :: k != key ==> Lookup(r.value, k) == Lookup(store, k)
  {
    if fails then None
    else match value
      case None => Some(store - {key})
      case Some(v) => Some(store[key := v])
  }

  /** A read after a successful write returns what was written, or `null`
      after writing `null`. */
  lemma WriteThenRead(store: Store, key: string, value: Option<string>)
    ensures var written := SetStorageItem(store, key, value, false);
      written.Some? && GetItem(written.value, key, false) == ReadValue(value)
  {
  }

  /** Deleting a key that is absent leaves the store as it was. */
  lemma DeleteAbsentIsNoop(store: Store, key: string)
    requires key !in store
    ensures SetStorageItem(store, key, None, false) == Some(store)
  {
    assert store - {key} == store;
  }

  /** The hook for one key, with the platform store it reads and writes. */
  datatype Hook = Hook(key: string, state: SessionState, store: Store)

  /** `useStorageState(key)` on mount, before the load effect settles. */
  function Mount(key: string, store: Store): (h: Hook)
    ensures h.state.loading && h.state.value == None
    ensures h.key == key && h.store == store
  {
    Hook(key, InitialState, store)
  }

  /** The load effect once `getItemAsync(key)` settles: the stored value,
      or `null` when the read failed. */
  function Load(h: Hook, readFails: bool): (r: Hook)
    ensures !r.state.loading
    ensures r.key == h.key && r.store == h.store
    ensures r.state.value == if readFails then None else Lookup(h.store, h.key)
  {
    var action := match GetItem(h.store, h.key, readFails)
      case ReadValue(v) => Dispatch(v)
      case ReadFailed => Dispatch(None);
    h.(state := Reduce(h.state, action))
  }

  /** `setValue(value)`: the state observable right away, and the hook once
      the write, and after a failed write the re-read, has settled. */
  datatype SetValueTrace = SetValueTrace(optimistic: SessionState, settled: Hook)

  function SetValue(h: Hook, value: Option<string>, writeFails: bool, rereadFails: bool): (r: SetValueTrace)
    ensures r.optimistic == SessionState(false, value)
    ensures r.settled.key == h.key && !r.settled.state.loading
    ensures !writeFails ==> r.settled.state.value == value == Lookup(r.settled.store, h.key)
    ensures !writeFails ==> forall k :: k != h.key ==> Lookup(r.settled.store, k) == Lookup(h.store, k)
    ensures writeFails ==> r.settled.store == h.store
    ensures writeFails ==> r.settled.state.value == if rereadFails then None else Lookup(h.store, h.key)
  {
    var optimistic := Reduce(h.state, Dispatch(value));
    match SetStorageItem(h.store, h.key, value, writeFails)
    case Some(store) =>
      SetValueTrace(optimistic, Hook(h.key, optimistic, store))
    case None =>
      var reconciled := match GetItem(h.store, h.key, rereadFails)
        case ReadValue(current) => Dispatch(current)
        case ReadFailed => Dispatch(None);
      SetValueTrace(optimistic, Hook(h.key, Reduce(optimistic, reconciled), h.store))
  }

  /** The observable value agrees with what the platform holds for the key. */
  predicate InSync(h: Hook) {
    !h.state.loading && h.state.value == Lookup(h.store, h.key)
  }

  /** Writing `null` when nothing is stored ends with nothing stored and a
      loaded `null` state, whether or not the platform write or the re-read fails. */
  lemma ClearAbsentSession(h: Hook, writeFails: bool, rereadFails: bool)
    requires h.key !in h.store
    ensures var settled := SetValue(h, None, writeFails, rereadFails).settled;
      settled.store == h.store && settled.state == SessionState(false, None)
  {
    if !writeFails {
      DeleteAbsentIsNoop(h.store, h.key);
    }
  }

  /** What happens to a mounted hook, one settled operation at a time. */
  datatype Event =
    | LoadSettled(readFails: bool)
    | SetValueSettled(value: Option<string>, writeFails: bool, rereadFails: bool)

  function Step(h: Hook, e: Event): Hook {
    match e
    case LoadSettled(readFails) => Load(h, readFails)
    case SetValueSettled(value, writeFails, rereadFails) => SetValue(h, value, writeFails, rereadFails).settled
  }

  function Run(h: Hook, events: seq<Event>): Hook
    decreases |events|
  {
    if events == [] then h else Run(Step(h, events[0]), events[1..])
  }

  /** An operation ends in sync unless every read it relied on failed. */
  predicate Reliable(e: Event) {
    match e
    case LoadSettled(readFails) => !readFails
    case SetValueSettled(_, writeFails, rereadFails) => !writeFails || !rereadFails
  }

  /** Over any run of the hook the key stays the same, no other key of the
      store changes, loading ends at the first settled operation, and a run
      whose last operation is reliable ends in sync. */
  lemma {:induction false} RunInvariants(h: Hook, events: seq<Event>)
    ensures Run(h, events).key == h.key
    ensures forall k :: k != h.key ==> Lookup(Run(h, events).store, k) == Lookup(h.store, k)
    ensures events != [] ==> !Run(h, events).state.loading
    ensures events != [] && Reliable(events[|events| - 1]) ==> InSync(Run(h, events))
    decreases |events|
  {
    if events != [] {
      var next := Step(h, events[0]);
      RunInvariants(next, events[1..]);
      if |events| > 1 {
        assert events[1..][|events[1..]| - 1] == events[|events| - 1];
      } else {
        assert Run(next, events[1..]) == next;
      }
    }
  }
}

=== FILE: text_field.dfy ===
/** The decision logic of the Material text field: the visual state its
    border styles are chosen by, what `clear()` does, and when the
    placeholder, the clear icon and the error icon are shown. */
module TextField {
  import opened Wrappers
  import opened JsText

  /** The states the border style tables define. */
  datatype InputState = Idle | Focused | Error | ErrorAndFocused | Disabled

  /** `getInputState({ isFocused, hasError, editable })`. An absent
      `hasError` counts as false, an absent `editable` as editable. */
  function GetInputState(isFocused: bool, hasError: Option<bool>, editable: Option<bool>): (r: InputState)
    ensures r != Error
    ensures r == Disabled <==> editable == Some(false)
    ensures r == ErrorAndFocused <==> editable != Some(false) && hasError == Some(true) && isFocused
    ensures r == Focused <==> editable != Some(false) && hasError != Some(true) && isFocused
    ensures r == Idle <==> editable != Some(false) && !isFocused
  {
    if editable == Some(false) then Disabled
    else if hasError == Some(true) && isFocused then ErrorAndFocused
    else if isFocused then Focused
    else Idle
  }

  /** The props and local state the field's display decisions read. */
  datatype Field = Field(
    value: string,
    isFocused: bool,
    errorMessage: Option<string>,
    labelText: Option<string>,
    editable: Option<bool>,
    hideActionIcons: Option<bool>)

  /** The state passed to both border style tables: `hasError` is `!!errorMessage`. */
  function State(f: Field): InputState {
    GetInputState(f.isFocused, Some(Truthy(f.errorMessage)), f.editable)
  }

  /** `disabled={editable === false}` on the pressable root. */
  predicate PressDisabled(f: Field) {
    f.editable == Some(false)
  }

  /** `clear()`: the text is changed to the empty string. */
  function Clear(f: Field): (r: Field)
    ensures r.value == ""
    ensures r.(value := f.value) == f
  {
    f.(value := "")
  }

  /** The placeholder handed to the input: the caller's while focused or
      without a label, otherwise the empty string (the label stands in). */
  function Placeholder(f: Field, placeholder: Option<string>): (r: Option<string>)
    ensures f.isFocused || !Truthy(f.labelText) ==> r == placeholder
    ensures !f.isFocused && Truthy(f.labelText) ==> r == Some("")
  {
    if f.isFocused || !Truthy(f.labelText) then placeholder else Some("")
  }

  /** What the field shows after the input, if anything. */
  datatype ActionIcon = NoIcon | ErrorIcon | ClearIcon

  /** The action-icon slot: nothing when the icons are hidden, otherwise the
      error icon when there is an error message, otherwise the clear icon
      when there is text and focus. */
  function ShownIcon(f: Field): (icon: ActionIcon)
    ensures f.hideActionIcons == Some(true) ==> icon == NoIcon
  {
    if f.hideActionIcons == Some(true) then NoIcon
    else if Truthy(f.errorMessage) then ErrorIcon
    else if f.value != "" && f.isFocused then ClearIcon
    else NoIcon
  }

  /** The error icon shows exactly when the icons are not hidden and there is
      an error message, whatever the focus or the text. */
  function ShowsErrorIcon(f: Field): (shown: bool)
    ensures shown <==> f.hideActionIcons != Some(true) && Truthy(f.errorMessage)
  {
    ShownIcon(f) == ErrorIcon
  }

  /** The clear icon shows exactly when the icons are not hidden, there is no
      error message, the text is non-empty and the field is focused. */
  function ShowsClearIcon(f: Field): (shown: bool)
    ensures shown <==> f.hideActionIcons != Some(true) && !Truthy(f.errorMessage) && f.value != "" && f.isFocused
  {
    ShownIcon(f) == ClearIcon
  }

  /** An unfocused field with an error message is styled `idle`, never `error`. */
  lemma UnfocusedErrorIsIdle(f: Field)
    requires !f.isFocused && Truthy(f.errorMessage) && f.editable != Some(false)
    ensures State(f) == Idle
  {
  }

  /** The root is disabled exactly when the field is styled `disabled`. */
  lemma PressDisabledIffDisabledState(f: Field)
    ensures PressDisabled(f) <==> State(f) == Disabled
  {
  }

  /** Focus reveals the caller's placeholder even under a label, and
      clearing the text never changes which placeholder is shown. */
  lemma PlaceholderFollowsFocus(f: Field, placeholder: Option<string>)
    ensures Placeholder(f.(isFocused := true), placeholder) == placeholder
    ensures Placeholder(Clear(f), placeholder) == Placeholder(f, placeholder)
    ensures Truthy(f.labelText) && placeholder != Some("") ==>
      (Placeholder(f, placeholder) == placeholder <==> f.isFocused)
  {
  }

  /** The error icon and the clear icon are never shown together. */
  lemma IconsExclusive(f: Field)
    ensures !(ShowsErrorIcon(f) && ShowsClearIcon(f))
  {
  }

  /** Clearing hides the clear icon and changes neither focus nor style. */
  lemma ClearHidesClearIcon(f: Field)
    ensures !ShowsClearIcon(Clear(f))
    ensures State(Clear(f)) == State(f)
    ensures ShowsErrorIcon(Clear(f)) == ShowsErrorIcon(f)
  {
  }
}

=== FILE: wrappers.dfy ===
/** Optional values and success/failure results shared by the other modules.
    `None` stands for JavaScript's `undefined` (or `null` where the source
    treats both alike); `Failure` stands for a thrown `Error`. */
module Wrappers {

  datatype Option<+T> = None | Some(value: T)

  datatype Result<+T, +E> = Success(value: T) | Failure(error: E)
}
